=== FILE: README.md ===
# bbcov coverage bookkeeping, modelled in Dafny

This project models the bookkeeping of the DynamoRIO `bbcov` basic-block
coverage client. The model covers five parts:

- **The basic-block event** (`Block`, `BBTable.OnBasicBlock`). The client walks the engine's
  instruction list for each new block. From it, it takes three values:
  - the furthest byte any application instruction reaches;
  - the number of application instructions, as a 16-bit counter;
  - the target of the last conditional branch.

  A translating event records nothing. An application instruction without a pc, or with a pc
  below the block start, is fatal: the client does not support elided control transfers.
- **Record construction** (`BBTable.EntryAdd`). Every block appends one record to an
  append-only table, and repeated blocks are appended again. For a block in a known module,
  the record holds the module id and 32-bit offsets from the module base. Otherwise it holds
  the sentinel id `USHRT_MAX` and the addresses cut to 32 bits. Each of the client's
  `ASSERT`s is a fatal `Failure`.
- **The conditional-branch check** (`CbrCheck`). This runs in two passes over the table, with
  one bucket per module plus a last bucket for blocks in no known module:
  - the first pass collects the distinct block starts of each bucket;
  - the second pass collects the distinct branch targets and fall-through addresses of each
    bucket, and counts those never seen as a block start;
  - each such miss is listed unless only a summary is wanted.
- **Option parsing** (`Options`). The option tokens are scanned with build-dependent option
  sets. A usage error stops the client. Afterwards the dump format is normalised so that
  exactly one of text and binary is chosen.
- **Log files and the Windows termination nudge** (`LogFile`, `Nudge`).
  - The log helper tries the names `prefix.0000.suffix` … `prefix.9999.suffix` in order and
    takes the first one it can create as a new file.
  - The nudge packs "terminate" and a 32-bit exit code into one 64-bit argument, and the
    receiver unpacks it.

The files are `base.dfy` (widths, `Option`/`Result`, fatal conditions), `block.dfy`,
`bbtable.dfy`, `cbrcheck.dfy`, `options.dfy`, `logfile.dfy` and `nudge.dfy`.

Several things the client calls are parameters of the model:

- the module lookup and its per-thread cache (`BBTable.Lookup`);
- number parsing with `%d` and `%u` (`Options.IntParser`, `Options.UintParser`);
- whether opening a file "must be new" succeeds (`opensNew`);
- the build configuration (`Options.Build`);
- the pending native-execution flag (`goNative`).

Integers are unbounded. The C conversions are written out:

- `(uint)` keeps the value modulo 2^32 (`Base.ToUint`);
- the `ushort` instruction counter wraps modulo 2^16;
- `(int)` of a 32-bit half is two's complement (`Nudge.ToInt32`).

Two boundaries of the record add are worth naming:

- A block of exactly 65535 bytes is refused: the check is `size < USHRT_MAX`, at
  `bbcov.c:455`.
- The module-id check at `bbcov.c:458` reads `bb_entry->mod_id`, the id field of the record
  just allocated, before line 459 stores `(ushort)mod_entry->id` into it. The model
  (`BBTable.EntryAdd`) checks the module's own id, which is what the message "module id
  overflow" is about. The code as written is `BBTable.EntryAddAsWritten`; see "## Findings".

## Model

| member | source | states |
|---|---|---|
| Block.SummarizeSucceedsIff | dynamorio/clients/bbcov/bbcov.c:686-702 | the walk over the instruction list fails exactly when some application instruction has a null pc or a pc below the block start, and the failure it reports is the elision error |
| Block.SummarizeExtent | dynamorio/clients/bbcov/bbcov.c:684-695 | the end found is the block start or the `pc + len` of some application instruction, and no application instruction reaches beyond it: it is the maximum |
| Block.SummarizeCount | dynamorio/clients/bbcov/bbcov.c:690-697 | the counter equals the number of application instructions modulo 2^16, the `ushort` wrap |
| Block.SummarizeLastBranch | dynamorio/clients/bbcov/bbcov.c:690-699 | the remembered target is that of the last application conditional branch in list order, and null when there is none |
| Block.SummarizeMatches | dynamorio/clients/bbcov/bbcov.c:684-702 | a successful walk gives exactly the reference values read off the list independently: the furthest reach of any application instruction (at least the start), the count modulo 2^16, and the target of the last application conditional branch |
| Block.BlockSize | dynamorio/clients/bbcov/bbcov.c:716 | the size fits 32 bits and, when the extent fits, start plus size is the end |
| BBTable.EntryAdd | dynamorio/clients/bbcov/bbcov.c:442-484 | fatal exactly for a size of 65535 or more, a module id of 65535 or more, a start not above the module base, or a non-null target not above it, and the error reported is the one of the first of these checks, in that order, that fails. On success: one record is appended and the earlier records are unchanged; the record holds the given size, count and trace flag; a known module's id is stored and is never the sentinel, its offsets added to the base give back the start and target modulo 2^32 (exactly, when they fit 32 bits), and a null target stays 0; a block of no known module gets the sentinel id and keeps its addresses modulo 2^32 |
| BBTable.EntryAddAsWritten | dynamorio/clients/bbcov/bbcov.c:457-459 | as written, a known module's id is stored cut to 16 bits, whatever the id check read |
| BBTable.ModuleIdCollidesAsWritten | dynamorio/clients/bbcov/bbcov.c:458-459 | a module whose id is 65535 modulo 2^16 gets, as written, a record stored under the sentinel id of "no known module", while the corrected add refuses it with the module-id overflow |
| BBTable.OnBasicBlock | dynamorio/clients/bbcov/bbcov.c:662-722 | a translating event changes nothing and returns the default flags. Otherwise the event succeeds exactly when every application instruction is admissible and the record add of the block succeeds, the add being given the last application branch target, the count modulo 2^16, the trace flag and the `(uint)` distance from the start to the furthest reach; on success the table is that add's table, with exactly one record appended, and the block goes native exactly when the handoff is pending; an inadmissible instruction is reported as the elision error, and a failure of the add with the add's error |
| BBTable.EntryAddKeepsTableValid | dynamorio/clients/bbcov/bbcov.c:449-484 | appending keeps every record of the table within its C field widths |
| BBTable.SizeBoundary | dynamorio/clients/bbcov/bbcov.c:455 | 65535 bytes is refused and 65534 is accepted |
| CbrCheck.Bucket | dynamorio/clients/bbcov/bbcov.c:299-300 | a record's bucket lies within the `num_mods` buckets, and it is the last one exactly for the sentinel id (or an id equal to the module count); a record of a known module lands in the bucket of its own id |
| CbrCheck.SentinelMisroutedAsWritten | dynamorio/clients/bbcov/bbcov.c:255 | as written, the `== -1` test does not catch the stored sentinel, so a sentinel record's index lies past the last bucket; the corrected bucket is the last one |
| CbrCheck.EntryAddFitsBuckets | dynamorio/clients/bbcov/bbcov.c:457-479 | when the lookup only returns ids below the module count, every record the add writes has a bucket |
| CbrCheck.FillBucket | dynamorio/clients/bbcov/bbcov.c:294-305 | after the first pass a bucket holds exactly the distinct starts of its records, and its count is their number, so repeated records do not inflate it |
| CbrCheck.OfferKeepsConsistent | dynamorio/clients/bbcov/bbcov.c:258-289 | offering one edge adds it to the seen set, keeps every distinct edge counted once and every distinct miss counted once, lists one line exactly when a first-seen edge misses and a listing is wanted, and leaves the fall-through counters alone for a target and the target counters alone for a fall-through |
| CbrCheck.OfferKeepsSplit | dynamorio/clients/bbcov/bbcov.c:258-289 | offering an edge as a target (or as a fall-through) keeps the per-side bounds, the edge joining the targets (or the fall-throughs) offered so far: each side's count lies between the edges offered only on that side and all edges offered on it, and likewise its misses with the starts left out |
| CbrCheck.CheckBucket | dynamorio/clients/bbcov/bbcov.c:248-292 | after the second pass a bucket has seen exactly the targets and fall-throughs of its branching records, with the counting invariant and one listed line per miss |
| CbrCheck.CheckSplit | dynamorio/clients/bbcov/bbcov.c:258-289 | after the second pass, whatever the record order, a bucket's target count lies between the number of its targets that are never fall-throughs and the number of its targets, its fall-through count likewise with the roles swapped, and each miss counter between the same sets with the starts left out |
| CbrCheck.CheckCbrShowsUnknown | dynamorio/clients/bbcov/bbcov.c:386-389 | the "unknown module" statistics are printed exactly when some record of the table has the sentinel id |
| CbrCheck.CheckCbrCounts | dynamorio/clients/bbcov/bbcov.c:335-390 | stated against the records alone, per bucket: the block count is the number of distinct starts; targets plus fall-throughs is the number of distinct edges; the misses are the edges that are never a start, and no miss counter exceeds its count; one line per miss is listed, and none with only a summary. Each printed side on its own: targets between the targets that are never fall-throughs and all targets, fall-throughs between the fall-throughs that are never targets and all fall-throughs, and each miss counter between the same sets with the starts left out |
| CbrCheck.CheckCbrListing | dynamorio/clients/bbcov/bbcov.c:258-289 | every listed line is in a bucket of the table; its `to` address is a target or fall-through of that bucket's branching records and never one of its block starts; its `from` address is the start of a branching record of that bucket whose target or fall-through it is; no (bucket, address) pair is listed twice; and unless only a summary is wanted, every such missed edge of every bucket is listed |
| CbrCheck.CheckCbrIgnoresDuplicates | dynamorio/clients/bbcov/bbcov.c:703-711 | appending a copy of a record already in the table changes nothing in the report |
| CbrCheck.TwoBlockExample | dynamorio/clients/bbcov/bbcov.c:258-289 | two blocks, one branching to the other: one target that is hit, one fall-through that misses, and the miss line listed |
| Options.Interpret | dynamorio/clients/bbcov/bbcov.c:892-940 | reading one option keeps summary-implies-check and handoff-iff-positive-threshold, and an option of another build never changes the nudge or check settings |
| Options.KindOfNames | dynamorio/clients/bbcov/bbcov.c:892-935 | each branch of the comparison chain is taken for exactly one token (the nudge names only on Windows, the check names only with branch coverage), the last branch exactly for a name the build does not know, and the three branches that read an argument are those of the names that take one |
| Options.InterpretAccepts | dynamorio/clients/bbcov/bbcov.c:892-940 | one option is read exactly when it is accepted: known to the build, with its argument present, a positive `%d` threshold, a `%u` verbosity, and `-summary_only` only with the check on; a read option takes one token plus its argument; a refused one reports, in this order, an unrecognised name, a missing argument, the check not set, or an invalid number |
| Options.InterpretStores | dynamorio/clients/bbcov/bbcov.c:892-940 | a read option sets exactly its own flag (text, binary, check, summary), sets the nudge setting only for the two nudge names on Windows, and stores the log directory, the parsed verbosity or the parsed threshold only for its own name, leaving them unchanged otherwise |
| Options.Scan | dynamorio/clients/bbcov/bbcov.c:889-941 | the scan keeps summary-implies-check and handoff-iff-positive-threshold, and builds without Windows or branch coverage never change the options they lack |
| Options.Normalize | dynamorio/clients/bbcov/bbcov.c:942-947 | exactly one dump format; text only when text alone was asked for; nothing else changes |
| Options.ParseOptions | dynamorio/clients/bbcov/bbcov.c:878-948 | an accepted parse has exactly one dump format and consistent check and handoff settings |
| Options.ScanAccepts | dynamorio/clients/bbcov/bbcov.c:889-941 | the scan succeeds exactly when every option of the token list is accepted where it stands, the check counting as on after the first `-check_cbr`; then the log directory, the verbosity and the threshold are those given by the last option that sets each, or unchanged when none does |
| Options.ParseOptionsAccepts | dynamorio/clients/bbcov/bbcov.c:878-948 | the whole parse succeeds exactly when every option is accepted where it stands, starting with the check off; then the log directory is the last `-logdir` argument or empty, the verbosity the last `-verbose` value or 0, and the threshold the last `-native_until_thread` value or 0 with no handoff pending |
| Options.ScanNames | dynamorio/clients/bbcov/bbcov.c:885-941 | over the option names of an accepted token list: every name is known to the build; each of the text, binary, check and summary flags is on exactly when it was on before or its name occurs; on Windows the nudge setting is the one the last of `-no_nudge_kills` and `-nudge_kills` gives, else the earlier one; every `-summary_only` follows a `-check_cbr` unless the check was already on |
| Options.ParseOptionsNames | dynamorio/clients/bbcov/bbcov.c:878-948 | from the names alone: binary unless `-dump_text` is given without `-dump_binary`; the check is on exactly when `-check_cbr` occurs; the summary exactly when `-summary_only` occurs; on Windows nudges kill unless the last of `-no_nudge_kills` and `-nudge_kills` is `-no_nudge_kills`; `-summary_only` is only ever accepted after `-check_cbr` |
| Options.DumpFormatExamples | dynamorio/clients/bbcov/bbcov.c:942-947 | no option gives binary, `-dump_text` alone gives text, and both give binary |
| Options.SummaryOrderExamples | dynamorio/clients/bbcov/bbcov.c:928-935 | `-summary_only -check_cbr` is a usage error, and `-check_cbr -summary_only` is accepted |
| Options.ThresholdExamples | dynamorio/clients/bbcov/bbcov.c:907-919 | a zero threshold or a missing number is a usage error, a positive one makes the handoff pending, and a Windows-only option is unrecognised elsewhere |
| LogFile.ZeroPadRoundTrip | dynamorio/clients/bbcov/bbcov.c:150 | `%04d` of an index below 10000 reads back as the index |
| LogFile.LogFileNamesDistinct | dynamorio/clients/bbcov/bbcov.c:149-150 | distinct attempts try distinct names |
| LogFile.CreateLogFile | dynamorio/clients/bbcov/bbcov.c:142-165 | the result is the first index whose name opens as a new file, and no index when none of the 10000 does |
| Nudge.EncodeTerminate | dynamorio/clients/bbcov/bbcov.c:630-636 | fatal exactly when the exit code has a non-zero upper half; otherwise the low half is the terminate request and the high half is the exit code |
| Nudge.OnNudge | dynamorio/clients/bbcov/bbcov.c:589-598 | accepted exactly when the low 32 bits are the terminate request; the exit code returned has the bits of the high half |
| Nudge.TerminateRoundTrip | dynamorio/clients/bbcov/bbcov.c:626-636 | the receiver exits with the code the sender packed, read as a signed 32-bit value |
| Nudge.AcceptedNudgeIsEncoded | dynamorio/clients/bbcov/bbcov.c:589-598 | every argument the receiver accepts is the packing of the exit code in its upper half |

## Left out

- The module table, its vector and its per-thread lookup cache are not modelled. The lookup is
  a function parameter, and `module_table_lookup` is not part of this model.
- The drtable storage is not modelled: allocation, iteration order beyond first-to-last,
  persistence and dumping. The table is a sequence.
- Per-thread contexts, TLS, fork handling, thread and process exit, and the native-execution
  handoff in the thread-init event are left out. They are lifecycle plumbing; the pending flag
  is an input to `BBTable.OnBasicBlock`.
- Printing is not modelled: the text and binary dumps, the version line, the module lines of
  the check report and the log-file path assembly. Formatting and I/O carry no bookkeeping.
  The check report is modelled as its numbers and its miss lines.
- The system-call filter, `get_sysnum`, and the pid and handle checks around the terminate
  nudge are left out, because they call the engine. Only the packing and unpacking of the
  argument are modelled.
- Tokenising with `dr_get_token` is not modelled: quoting, and truncation to the token and path
  buffers. The model receives the token list. `%d` and `%u` parsing is a parameter, so the
  model does not fix their overflow behaviour.
- `snprintf` truncation of a log name to the path buffer is left out. The names are modelled in
  full.
- Release builds are not modelled: there `ASSERT` is compiled out and execution goes on. The
  model is the debug build, in which each `ASSERT` is fatal.
- `USAGE_CHECK` is taken to stop the client with a usage error. The header that defines it is
  not part of this model.
- The record layout without branch coverage is not modelled: branch-coverage records are always
  built. Only option parsing depends on the build.
- Pointer arithmetic overflow of `pc + len` is not modelled, because addresses are unbounded
  naturals. The 32-bit truncations that the record fields apply are modelled.
- Hashtable sizing and the memory the check allocates are left out, because they do not affect
  the counts.
- Nudge.OnNudge: the "should not reach" after `dr_exit_process` is not modelled, because the
  process exit is the success result.
- CbrCheck.CheckCbrCounts: when one address is both a target and a fall-through of the same
  bucket, which of the two counters it lands in depends on which record the second pass meets
  first. The model states the bounds that hold for every order, not the exact split.
- Running the same event twice is not stated as a lemma. Every operation here is a pure
  function of its inputs, so repeating it gives the same result by construction.

## Findings

| source | as written | input that shows it | evidently intended | confidence | as-written member | corrected member |
|---|---|---|---|---|---|---|
| dynamorio/clients/bbcov/bbcov.c:255 | both passes map a record to bucket `num_mods-1` only when `bb_entry->mod_id == -1` (lines 255 and 299), but a block of no known module is stored with `mod_id = USHRT_MAX` (line 474), and for an unsigned 16-bit field the comparison with `-1` is never true | a record of no known module, in a table of fewer than 65535 modules: its index is 65535, past the `num_mods` hashtables and counters | the sentinel goes to the last bucket, `num_mods-1`, the one reported as "basic blocks from unknown module" | medium: depends on `mod_id` being an unsigned 16-bit field, which is declared in `bbcov.h` (not part of this model); not executed | CbrCheck.SentinelMisroutedAsWritten | CbrCheck.Bucket |
| dynamorio/clients/bbcov/bbcov.c:458 | the module-id check reads `bb_entry->mod_id`, the field of the record `drtable_alloc` has just returned, and line 459 then stores `(ushort)mod_entry->id` | a block in a known module whose id is 65535 (or 65535 plus a multiple of 65536), with the fresh field below 65535: the check passes and the record is stored with id 65535, the sentinel for "no known module" | the check is on `mod_entry->id`, so an id that cannot be stored apart from the sentinel is refused as a module-id overflow | medium: the fresh field's contents depend on the allocator; not executed | BBTable.ModuleIdCollidesAsWritten | BBTable.EntryAdd |

=== FILE: base.dfy ===
/** Machine-width constants, the failure-carrying datatypes and the fatal
    conditions shared by every part of the coverage collector model. */
module Base {

  /** `USHRT_MAX`: the largest 16-bit unsigned value; also the module id the
      collector stores for a block outside every known module. */
  const USHRT_MAX: nat := 0xFFFF

  /** Number of distinct 16-bit values (a `ushort` wraps modulo this). */
  const USHORT_RANGE: nat := 0x1_0000

  /** Number of distinct 32-bit values (a `uint` cast keeps the value modulo this). */
  const UINT_RANGE: nat := 0x1_0000_0000

  /** The C conversion `(uint)x`: keep the low 32 bits of `x`. */
  function ToUint(x: int): (r: nat)
    ensures r < UINT_RANGE
    ensures 0 <= x < UINT_RANGE ==> r == x
  {
    x % UINT_RANGE
  }

  /** A value that may be absent (a null pointer in the collector). */
  datatype Option<+T> = None | Some(value: T)

  /** Either a value or the reason the collector stopped. */
  datatype Result<+T, +E> = Success(value: T) | Failure(error: E) {
    predicate IsFailure() {
      Failure?
    }

    function PropagateFailure<U>(): Result<U, E>
      requires Failure?
    {
      Failure(error)
    }

    function Extract(): T
      requires Success?
    {
      value
    }
  }

  /** The invariant violations the collector treats as fatal (its `ASSERT`s,
      which abort in a debug build). */
  datatype Fatal =
    | ElisionUnsupported    // an application instruction before the block start, or without a pc
    | SizeOverflow          // a block size that does not fit below USHRT_MAX
    | ModuleIdOverflow      // a module id that does not fit below USHRT_MAX
    | WrongModule           // a block start not strictly above its module's base
    | CbrOutsideModule      // a branch target not strictly above its module's base
    | ExitCodeTooWide       // an exit code with a non-zero upper half
    | UnsupportedNudge      // a nudge argument other than "terminate process"
}

=== FILE: bbtable.dfy ===
/** The basic-block table: building one record per observed block and
    appending it, duplicates included, to an append-only sequence. */
module BBTable {
  import opened Base
  import Block

  /** A module table entry as the lookup returns it: its id and, when the
      entry carries module data, the module's base address. */
  datatype ModuleEntry = ModuleEntry(id: nat, base: Option<nat>)

  /** The module lookup (with its per-thread cache) as a pure function from a
      code address to the entry covering it, if any. */
  type Lookup = nat -> Option<ModuleEntry>

  /** One basic-block record: module id (or the `USHRT_MAX` sentinel), start
      offset, size, conditional-branch target offset (0: none), number of
      application instructions, and whether the block was built for a trace. */
  datatype Entry = Entry(modId: nat, start: nat, size: nat, cbrTgt: nat, numInstrs: nat, trace: bool)

  /** The sentinel module id of a block outside every known module. */
  const UNKNOWN_MOD_ID: nat := USHRT_MAX

  /** Every field fits its C width; a real module id stays below the sentinel. */
  predicate ValidEntry(e: Entry)
  {
    && e.modId <= UNKNOWN_MOD_ID
    && e.start < UINT_RANGE
    && e.size < USHRT_MAX
    && e.cbrTgt < UINT_RANGE
    && e.numInstrs < USHORT_RANGE
  }

  predicate ValidTable(table: seq<Entry>)
  {
    forall k :: 0 <= k < |table| ==> ValidEntry(table[k])
  }

  /** The lookup found a module that carries data (a base address). */
  predicate InKnownModule(lookup: Lookup, start: nat)
  {
    lookup(start).Some? && lookup(start).value.base.Some?
  }

  /** An address stored as a 32-bit offset from a base resolves back to
      the address modulo 2^32. */
  lemma OffsetResolves(base: nat, x: nat)
    ensures (base + ToUint(x - base)) % UINT_RANGE == x % UINT_RANGE
  {
    var d := x - base;
    assert d == (d / UINT_RANGE) * UINT_RANGE + ToUint(d);
    assert base + ToUint(d) == x - (d / UINT_RANGE) * UINT_RANGE;
  }

  /** Building and appending the record for a block at `start` of `size`
      bytes. In a known module the record holds the module id and offsets from
      the module base; otherwise the sentinel id and the addresses cut to 32
      bits. The module-id check is made on the module's id, which the stored
      16-bit field must be able to hold apart from the sentinel. */
  function EntryAdd(table: seq<Entry>, lookup: Lookup, start: nat, cbrTgt: nat,
                    numInstrs: nat, trace: bool, size: nat): (r: Result<seq<Entry>, Fatal>)
    requires numInstrs < USHORT_RANGE && size < UINT_RANGE
    ensures r.Failure? <==>
      || size >= USHRT_MAX
      || (InKnownModule(lookup, start)
          && var m := lookup(start).value;
             m.id >= USHRT_MAX || start <= m.base.value || (cbrTgt != 0 && cbrTgt <= m.base.value))
    // the first assert that fails names the error
    ensures r.Failure? ==>
      r.error == (if size >= USHRT_MAX then SizeOverflow
                  else if lookup(start).value.id >= USHRT_MAX then ModuleIdOverflow
                  else if start <= lookup(start).value.base.value then WrongModule
                  else CbrOutsideModule)
    ensures r.Success? ==>
      && |r.value| == |table| + 1
      && r.value[..|table|] == table
      && ValidEntry(r.value[|table|])
    ensures r.Success? ==>
      var e := r.value[|table|];
      && e.size == size && e.numInstrs == numInstrs && e.trace == trace
      && (InKnownModule(lookup, start) ==>
            var m := lookup(start).value;
            && e.modId == m.id && e.modId != UNKNOWN_MOD_ID
            // the offset resolves back to the observed address when it fits 32 bits
            && (start - m.base.value < UINT_RANGE ==> m.base.value + e.start == start)
            && (cbrTgt == 0 ==> e.cbrTgt == 0)
            && (cbrTgt != 0 && cbrTgt - m.base.value < UINT_RANGE ==> m.base.value + e.cbrTgt == cbrTgt)
            // and, whatever the distance, modulo 2^32
            && (m.base.value + e.start) % UINT_RANGE == start % UINT_RANGE
            && (cbrTgt != 0 ==> (m.base.value + e.cbrTgt) % UINT_RANGE == cbrTgt % UINT_RANGE))
      && (!InKnownModule(lookup, start) ==>
            && e.modId == UNKNOWN_MOD_ID
            && e.start % UINT_RANGE == start % UINT_RANGE
            && e.cbrTgt % UINT_RANGE == cbrTgt % UINT_RANGE)
  {
    if size >= USHRT_MAX then Failure(SizeOverflow)
    else if InKnownModule(lookup, start) then
      var m := lookup(start).value;
      var base := m.base.value;
      if m.id >= USHRT_MAX then Failure(ModuleIdOverflow)
      else if start <= base then Failure(WrongModule)
      else if cbrTgt != 0 && cbrTgt <= base then Failure(CbrOutsideModule)
      else
        var tgt := if cbrTgt == 0 then 0 else ToUint(cbrTgt - base);
        OffsetResolves(base, start);
        OffsetResolves(base, cbrTgt);
        Success(table + [Entry(m.id, ToUint(start - base), size, tgt, numInstrs, trace)])
    else
      Success(table + [Entry(UNKNOWN_MOD_ID, ToUint(start), size, ToUint(cbrTgt), numInstrs, trace)])
  }

  /** The record add as written: the module-id check reads `allocatedModId`,
      the id field of the record just allocated, instead of the module's id,
      and the module's id is then stored cut to 16 bits. */
  function EntryAddAsWritten(table: seq<Entry>, lookup: Lookup, allocatedModId: nat, start: nat,
                             cbrTgt: nat, numInstrs: nat, trace: bool, size: nat): (r: Result<seq<Entry>, Fatal>)
    requires numInstrs < USHORT_RANGE && size < UINT_RANGE
    ensures r.Success? && InKnownModule(lookup, start) ==>
      |r.value| == |table| + 1 && r.value[|table|].modId == lookup(start).value.id % USHORT_RANGE
  {
    if size >= USHRT_MAX then Failure(SizeOverflow)
    else if InKnownModule(lookup, start) then
      var m := lookup(start).value;
      var base := m.base.value;
      if allocatedModId >= USHRT_MAX then Failure(ModuleIdOverflow)
      else if start <= base then Failure(WrongModule)
      else if cbrTgt != 0 && cbrTgt <= base then Failure(CbrOutsideModule)
      else
        var tgt := if cbrTgt == 0 then 0 else ToUint(cbrTgt - base);
        Success(table + [Entry(m.id % USHORT_RANGE, ToUint(start - base), size, tgt, numInstrs, trace)])
    else
      Success(table + [Entry(UNKNOWN_MOD_ID, ToUint(start), size, ToUint(cbrTgt), numInstrs, trace)])
  }

  /** As written, a block of a module whose id is 65535 (or any id congruent to
      it modulo 2^16) is stored under the sentinel id of "no known module",
      whenever the freshly allocated field happens to be small; the intended
      check refuses that id. */
  lemma ModuleIdCollidesAsWritten(table: seq<Entry>, lookup: Lookup, start: nat)
    requires lookup(start).Some? && lookup(start).value.base.Some?
    requires lookup(start).value.id % USHORT_RANGE == USHRT_MAX
    requires start > lookup(start).value.base.value
    ensures var r := EntryAddAsWritten(table, lookup, 0, start, 0, 1, false, 4);
      r.Success? && r.value[|table|].modId == UNKNOWN_MOD_ID
    ensures EntryAdd(table, lookup, start, 0, 1, false, 4) == Failure(ModuleIdOverflow)
  {
  }

  /** The emit flags returned to the engine. */
  datatype EmitFlags = EmitDefault | EmitGoNative

  /** The record add the basic-block event performs, with its arguments taken
      from the front-counted references: the last branch target, the
      application-instruction count as a 16-bit value, and the furthest reach
      less the start, cut to 32 bits. */
  function EventAdd(table: seq<Entry>, lookup: Lookup, startPc: nat, instrs: seq<Block.Instr>,
                    forTrace: bool): Result<seq<Entry>, Fatal>
  {
    EntryAdd(table, lookup, startPc, Block.LastCbr(instrs), Block.AppCount(instrs) % USHORT_RANGE,
             forTrace, ToUint(Block.MaxEnd(startPc, instrs) - startPc))
  }

  /** The basic-block event: a translating event records nothing; otherwise the
      instruction list is summarised and one record is appended. The block
      is sent native while the native-execution handoff is pending. */
  function OnBasicBlock(table: seq<Entry>, lookup: Lookup, startPc: nat, instrs: seq<Block.Instr>,
                        forTrace: bool, translating: bool, goNative: bool): (r: Result<(seq<Entry>, EmitFlags), Fatal>)
    ensures translating ==> r == Success((table, EmitDefault))
    ensures !translating ==>
      (r.Success? <==> (forall k :: 0 <= k < |instrs| ==> Block.Admissible(startPc, instrs[k]))
                       && EventAdd(table, lookup, startPc, instrs, forTrace).Success?)
    ensures !translating && r.Success? ==>
      r.value == (EventAdd(table, lookup, startPc, instrs, forTrace).value,
                  if goNative then EmitGoNative else EmitDefault)
    ensures !translating && r.Failure? && (forall k :: 0 <= k < |instrs| ==> Block.Admissible(startPc, instrs[k])) ==>
      r.error == EventAdd(table, lookup, startPc, instrs, forTrace).error
    ensures !translating && (exists k :: 0 <= k < |instrs| && !Block.Admissible(startPc, instrs[k])) ==>
      r == Failure(ElisionUnsupported)
    ensures !translating && r.Success? ==>
      && |r.value.0| == |table| + 1
      && r.value.0[..|table|] == table
      && ValidEntry(r.value.0[|table|])
      && r.value.0[|table|].numInstrs == Block.AppCount(instrs) % USHORT_RANGE
      && r.value.0[|table|].trace == forTrace
      && r.value.1 == (if goNative then EmitGoNative else EmitDefault)
  {
    if translating then Success((table, EmitDefault))
    else
      Block.SummarizeSucceedsIff(startPc, instrs);
      match Block.Summarize(startPc, instrs)
      case Failure(e) => Failure(e)
      case Success(s) =>
        Block.SummarizeExtent(startPc, instrs);
        Block.SummarizeCount(startPc, instrs);
        Block.SummarizeMatches(startPc, instrs);
        var size := Block.BlockSize(startPc, s);
        match EntryAdd(table, lookup, startPc, s.cbrTgt, s.numInstrs, forTrace, size)
        case Failure(e) => Failure(e)
        case Success(t) => Success((t, if goNative then EmitGoNative else EmitDefault))
  }

  /** Appending never disturbs the records already in the table, and every
      record written fits its fields. */
  lemma {:induction false} EntryAddKeepsTableValid(table: seq<Entry>, lookup: Lookup, start: nat, cbrTgt: nat,
                                                  numInstrs: nat, trace: bool, size: nat)
    requires ValidTable(table)
    requires numInstrs < USHORT_RANGE && size < UINT_RANGE
    ensures var r := EntryAdd(table, lookup, start, cbrTgt, numInstrs, trace, size);
      r.Success? ==> ValidTable(r.value)
  {
    var r := EntryAdd(table, lookup, start, cbrTgt, numInstrs, trace, size);
    if r.Success? {
      forall k | 0 <= k < |r.value|
        ensures ValidEntry(r.value[k])
      {
        if k < |table| {
          assert r.value[k] == r.value[..|table|][k];
        }
      }
    }
  }

  /** A block of 65535 bytes is refused; 65534 is the largest size accepted. */
  lemma SizeBoundary(table: seq<Entry>, lookup: Lookup, start: nat)
    requires !InKnownModule(lookup, start)
    ensures EntryAdd(table, lookup, start, 0, 1, false, USHRT_MAX) == Failure(SizeOverflow)
    ensures EntryAdd(table, lookup, start, 0, 1, false, USHRT_MAX - 1).Success?
  {
  }
}

=== FILE: block.dfy ===
/** Summarising one basic block from the engine's instruction list: the
    furthest byte the application instructions reach, how many application
    instructions there are, and the target of the last conditional branch. */
module Block {
  import opened Base

  /** One instruction of the engine's list, reduced to what the collector reads.
      `pc == 0` is a null application pc; `isApp` says the instruction is an
      application instruction (not one the engine inserted); `isCbr` says it
      has a valid opcode and is a conditional branch, with `target` its
      destination. */
  datatype Instr = Instr(pc: nat, len: nat, isApp: bool, isCbr: bool, target: nat)

  /** What the fold over the list produces. `cbrTgt == 0` means "no
      conditional branch seen" (a null target). */
  datatype Summary = Summary(endPc: nat, numInstrs: nat, cbrTgt: nat)

  /** An application instruction the collector accepts: it has a pc and that pc
      is not below the block start (no elided control transfer). */
  predicate Admissible(startPc: nat, i: Instr)
  {
    !i.isApp || (i.pc != 0 && i.pc >= startPc)
  }

  predicate IsAppCbr(i: Instr)
  {
    i.isApp && i.isCbr
  }

  /** Number of application instructions, counted from the front. */
  function AppCount(instrs: seq<Instr>): nat
  {
    if |instrs| == 0 then 0
    else (if instrs[0].isApp then 1 else 0) + AppCount(instrs[1..])
  }

  /** How far an instruction reaches: `pc + len` for an application
      instruction, nothing (0) for one the engine inserted. */
  function Reach(i: Instr): nat
  {
    if i.isApp then i.pc + i.len else 0
  }

  /** The furthest byte reached, counted from the front: the block start or
      the largest reach of an instruction, whichever is greater. */
  function MaxEnd(startPc: nat, instrs: seq<Instr>): nat
  {
    if |instrs| == 0 then startPc
    else
      var rest := MaxEnd(startPc, instrs[1..]);
      if Reach(instrs[0]) > rest then Reach(instrs[0]) else rest
  }

  /** Whether the list holds an application conditional branch. */
  function HasAppCbr(instrs: seq<Instr>): bool
  {
    |instrs| > 0 && (IsAppCbr(instrs[0]) || HasAppCbr(instrs[1..]))
  }

  /** The target of the last application conditional branch, counted from the
      front: the tail's answer when the tail has one, else the head's; 0 when
      the list holds none. */
  function LastCbr(instrs: seq<Instr>): nat
  {
    if |instrs| == 0 then 0
    else if HasAppCbr(instrs[1..]) then LastCbr(instrs[1..])
    else if IsAppCbr(instrs[0]) then instrs[0].target
    else 0
  }

  /** One step of the fold: instructions the engine inserted are skipped; an
      application instruction extends the end, bumps the 16-bit counter and,
      if it is a conditional branch, replaces the remembered target. */
  function Visit(startPc: nat, s: Summary, i: Instr): Result<Summary, Fatal>
  {
    if !i.isApp then Success(s)
    else if i.pc == 0 || i.pc < startPc then Failure(ElisionUnsupported)
    else Success(Summary(
      if i.pc + i.len > s.endPc then i.pc + i.len else s.endPc,
      (s.numInstrs + 1) % USHORT_RANGE,
      if i.isCbr then i.target else s.cbrTgt))
  }

  /** The fold over the instruction list in list order, starting from an end
      equal to the block start, no instructions and no branch. */
  function Summarize(startPc: nat, instrs: seq<Instr>): Result<Summary, Fatal>
  {
    if |instrs| == 0 then Success(Summary(startPc, 0, 0))
    else
      var s :- Summarize(startPc, instrs[..|instrs| - 1]);
      Visit(startPc, s, instrs[|instrs| - 1])
  }

  /** The block's byte size as the collector computes it: `(uint)(end - start)`. */
  function BlockSize(startPc: nat, s: Summary): (size: nat)
    requires s.endPc >= startPc
    ensures size < UINT_RANGE
    ensures s.endPc - startPc < UINT_RANGE ==> startPc + size == s.endPc
  {
    ToUint(s.endPc - startPc)
  }

  lemma {:induction false} AppCountSnoc(instrs: seq<Instr>, i: Instr)
    ensures AppCount(instrs + [i]) == AppCount(instrs) + (if i.isApp then 1 else 0)
    decreases |instrs|
  {
    if |instrs| == 0 {
      assert instrs + [i] == [i];
    } else {
      assert (instrs + [i])[1..] == instrs[1..] + [i];
      AppCountSnoc(instrs[1..], i);
    }
  }

  /** The fold fails exactly when some application instruction is not admissible. */
  lemma {:induction false} SummarizeSucceedsIff(startPc: nat, instrs: seq<Instr>)
    ensures Summarize(startPc, instrs).Success?
        <==> forall k :: 0 <= k < |instrs| ==> Admissible(startPc, instrs[k])
    ensures Summarize(startPc, instrs).Failure? ==> Summarize(startPc, instrs).error == ElisionUnsupported
    decreases |instrs|
  {
    if |instrs| > 0 {
      var front := instrs[..|instrs| - 1];
      SummarizeSucceedsIff(startPc, front);
      assert forall k :: 0 <= k < |front| ==> front[k] == instrs[k];
    }
  }

  /** On success the end is the maximum of the block start and every
      application instruction's `pc + len`. */
  lemma {:induction false} SummarizeExtent(startPc: nat, instrs: seq<Instr>)
    requires Summarize(startPc, instrs).Success?
    ensures var s := Summarize(startPc, instrs).value;
      && s.endPc >= startPc
      && (forall k :: 0 <= k < |instrs| && instrs[k].isApp ==> instrs[k].pc + instrs[k].len <= s.endPc)
      && (s.endPc == startPc
          || exists k :: 0 <= k < |instrs| && instrs[k].isApp && s.endPc == instrs[k].pc + instrs[k].len)
    decreases |instrs|
  {
    if |instrs| > 0 {
      var n := |instrs| - 1;
      var front := instrs[..n];
      SummarizeExtent(startPc, front);
      assert forall k :: 0 <= k < |front| ==> front[k] == instrs[k];
      var s0 := Summarize(startPc, front).value;
      var s := Summarize(startPc, instrs).value;
      if s.endPc != startPc && s.endPc != s0.endPc {
        assert s.endPc == instrs[n].pc + instrs[n].len;
      }
    }
  }

  /** On success the counter holds the number of application instructions, as
      a 16-bit value. */
  lemma {:induction false} SummarizeCount(startPc: nat, instrs: seq<Instr>)
    requires Summarize(startPc, instrs).Success?
    ensures Summarize(startPc, instrs).value.numInstrs == AppCount(instrs) % USHORT_RANGE
    decreases |instrs|
  {
    if |instrs| > 0 {
      var n := |instrs| - 1;
      var front := instrs[..n];
      SummarizeCount(startPc, front);
      assert front + [instrs[n]] == instrs;
      AppCountSnoc(front, instrs[n]);
    }
  }

  /** On success the remembered target is that of the last application
      conditional branch in list order, and null when there is none. */
  lemma {:induction false} SummarizeLastBranch(startPc: nat, instrs: seq<Instr>)
    requires Summarize(startPc, instrs).Success?
    ensures var s := Summarize(startPc, instrs).value;
      && ((forall k :: 0 <= k < |instrs| ==> !IsAppCbr(instrs[k])) ==> s.cbrTgt == 0)
      && (forall k :: 0 <= k < |instrs| && IsAppCbr(instrs[k])
            && (forall j :: k < j < |instrs| ==> !IsAppCbr(instrs[j]))
            ==> s.cbrTgt == instrs[k].target)
    decreases |instrs|
  {
    if |instrs| > 0 {
      var n := |instrs| - 1;
      var front := instrs[..n];
      SummarizeLastBranch(startPc, front);
      assert forall k :: 0 <= k < |front| ==> front[k] == instrs[k];
    }
  }

  lemma {:induction false} MaxEndSnoc(startPc: nat, instrs: seq<Instr>, i: Instr)
    ensures MaxEnd(startPc, instrs + [i])
         == if Reach(i) > MaxEnd(startPc, instrs) then Reach(i) else MaxEnd(startPc, instrs)
    decreases |instrs|
  {
    if |instrs| == 0 {
      assert instrs + [i] == [i];
      assert [i][1..] == [];
    } else {
      assert (instrs + [i])[1..] == instrs[1..] + [i];
      MaxEndSnoc(startPc, instrs[1..], i);
    }
  }

  lemma {:induction false} HasAppCbrSnoc(instrs: seq<Instr>, i: Instr)
    ensures HasAppCbr(instrs + [i]) == (HasAppCbr(instrs) || IsAppCbr(i))
    decreases |instrs|
  {
    if |instrs| == 0 {
      assert instrs + [i] == [i];
      assert [i][1..] == [];
    } else {
      assert (instrs + [i])[1..] == instrs[1..] + [i];
      HasAppCbrSnoc(instrs[1..], i);
    }
  }

  lemma {:induction false} LastCbrSnoc(instrs: seq<Instr>, i: Instr)
    ensures LastCbr(instrs + [i]) == if IsAppCbr(i) then i.target else LastCbr(instrs)
    decreases |instrs|
  {
    if |instrs| == 0 {
      assert instrs + [i] == [i];
      assert [i][1..] == [];
    } else {
      assert (instrs + [i])[1..] == instrs[1..] + [i];
      HasAppCbrSnoc(instrs[1..], i);
      LastCbrSnoc(instrs[1..], i);
    }
  }

  /** On success the fold's summary is exactly what the front-counted
      references give: the furthest reach, the application-instruction count
      modulo 2^16 and the last branch target. */
  lemma {:induction false} SummarizeMatches(startPc: nat, instrs: seq<Instr>)
    requires Summarize(startPc, instrs).Success?
    ensures Summarize(startPc, instrs).value
         == Summary(MaxEnd(startPc, instrs), AppCount(instrs) % USHORT_RANGE, LastCbr(instrs))
    decreases |instrs|
  {
    if |instrs| > 0 {
      var n := |instrs| - 1;
      var front := instrs[..n];
      assert front + [instrs[n]] == instrs;
      SummarizeMatches(startPc, front);
      MaxEndSnoc(startPc, front, instrs[n]);
      LastCbrSnoc(front, instrs[n]);
      SummarizeCount(startPc, instrs);
    }
  }
}

=== FILE: cbrcheck.dfy ===
/** The conditional-branch coverage check: two passes over a block table.
    Pass 1 collects, per module, the set of block start offsets; pass 2 offers
    every conditional branch target and fall-through to a per-module set of
    seen edges and counts the first-seen edges that are not block starts. One
    extra bucket, after the real modules, holds blocks of no known module. */
module CbrCheck {
  import opened Base
  import opened BBTable

  /** Every record names a module of the table or carries the sentinel. */
  predicate InTable(e: Entry, moduleCount: nat)
  {
    e.modId == UNKNOWN_MOD_ID || e.modId < moduleCount
  }

  predicate AllInTable(recs: seq<Entry>, moduleCount: nat)
  {
    forall k :: 0 <= k < |recs| ==> InTable(recs[k], moduleCount)
  }

  /** The bucket of a record among `moduleCount + 1`: its module id, or the
      last bucket for the sentinel. No record falls outside the buckets. */
  function Bucket(e: Entry, moduleCount: nat): (b: nat)
    requires InTable(e, moduleCount)
    ensures b <= moduleCount
    ensures b == moduleCount <==> e.modId == UNKNOWN_MOD_ID || e.modId == moduleCount
    ensures e.modId != UNKNOWN_MOD_ID ==> b == e.modId
  {
    if e.modId == UNKNOWN_MOD_ID then moduleCount else e.modId
  }

  /** The bucket as the check's source computes it, `mod_id == -1 ? num_mods
      - 1 : mod_id`, reading the module id from an unsigned field: the
      comparison with -1 is made on the field's non-negative value. */
  function BucketAsWritten(e: Entry, moduleCount: nat): int
  {
    var numMods := moduleCount + 1;
    if e.modId as int == -1 then numMods - 1 else e.modId
  }

  /** As written, a record of no known module (stored with `USHRT_MAX`) is
      routed to bucket 65535, past the `moduleCount + 1` buckets of any table
      with fewer than 65535 modules, while the intended bucket is the last. */
  lemma SentinelMisroutedAsWritten(e: Entry, moduleCount: nat)
    requires e.modId == UNKNOWN_MOD_ID && moduleCount < USHRT_MAX
    ensures BucketAsWritten(e, moduleCount) > moduleCount
    ensures Bucket(e, moduleCount) == moduleCount
  {
  }

  /** The address a conditional branch falls through to: `start + size` in
      32-bit unsigned arithmetic. */
  function FallThrough(e: Entry): nat
  {
    ToUint(e.start + e.size)
  }

  /** The lookup only returns entries of a module table of `moduleCount` entries. */
  ghost predicate LookupWithin(lookup: Lookup, moduleCount: nat)
  {
    forall a :: lookup(a).Some? ==> lookup(a).value.id < moduleCount
  }

  /** Every record the collector appends fits the check's buckets: its id is
      that of a module of the table or the sentinel, so no record is dropped. */
  lemma EntryAddFitsBuckets(table: seq<Entry>, lookup: Lookup, start: nat, cbrTgt: nat,
                            numInstrs: nat, trace: bool, size: nat, moduleCount: nat)
    requires AllInTable(table, moduleCount) && LookupWithin(lookup, moduleCount)
    requires numInstrs < USHORT_RANGE && size < UINT_RANGE
    ensures var r := EntryAdd(table, lookup, start, cbrTgt, numInstrs, trace, size);
      r.Success? ==> AllInTable(r.value, moduleCount)
  {
    var r := EntryAdd(table, lookup, start, cbrTgt, numInstrs, trace, size);
    if r.Success? {
      forall k | 0 <= k < |r.value|
        ensures InTable(r.value[k], moduleCount)
      {
        if k < |table| {
          assert r.value[k] == r.value[..|table|][k];
        }
      }
    }
  }

  // ---------------------------------------------------------------------
  // Reference definitions

  /** Start offsets of the records in bucket `m`. */
  function StartsOf(recs: seq<Entry>, moduleCount: nat, m: nat): set<nat>
    requires AllInTable(recs, moduleCount)
  {
    set k | 0 <= k < |recs| && Bucket(recs[k], moduleCount) == m :: recs[k].start
  }

  /** Branch targets of the records in bucket `m` that carry a conditional
      branch. */
  function TargetsOf(recs: seq<Entry>, moduleCount: nat, m: nat): set<nat>
    requires AllInTable(recs, moduleCount)
  {
    set k | 0 <= k < |recs| && recs[k].cbrTgt != 0 && Bucket(recs[k], moduleCount) == m :: recs[k].cbrTgt
  }

  /** Fall-through addresses of the records in bucket `m` that carry a
      conditional branch. */
  function FallsOf(recs: seq<Entry>, moduleCount: nat, m: nat): set<nat>
    requires AllInTable(recs, moduleCount)
  {
    set k | 0 <= k < |recs| && recs[k].cbrTgt != 0 && Bucket(recs[k], moduleCount) == m :: FallThrough(recs[k])
  }

  /** Branch targets and fall-throughs of the records in bucket `m` that
      carry a conditional branch. */
  function EdgesOf(recs: seq<Entry>, moduleCount: nat, m: nat): set<nat>
    requires AllInTable(recs, moduleCount)
  {
    TargetsOf(recs, moduleCount, m) + FallsOf(recs, moduleCount, m)
  }

  // ---------------------------------------------------------------------
  // Pass 1

  /** A bucket of pass 1: the start offsets added so far and the number of
      successful insertions. */
  datatype StartSet = StartSet(starts: set<nat>, numBbs: nat)

  function FillStep(p: seq<StartSet>, e: Entry, moduleCount: nat): seq<StartSet>
    requires InTable(e, moduleCount) && |p| == moduleCount + 1
  {
    var b := Bucket(e, moduleCount);
    if e.start in p[b].starts then p
    else p[b := StartSet(p[b].starts + {e.start}, p[b].numBbs + 1)]
  }

  /** Pass 1: every record, in table order, inserts its start into its bucket. */
  function Fill(recs: seq<Entry>, moduleCount: nat): (p: seq<StartSet>)
    requires AllInTable(recs, moduleCount)
    ensures |p| == moduleCount + 1
  {
    if |recs| == 0 then seq(moduleCount + 1, _ => StartSet({}, 0))
    else
      var n := |recs| - 1;
      assert forall k :: 0 <= k < n ==> recs[..n][k] == recs[k];
      FillStep(Fill(recs[..n], moduleCount), recs[n], moduleCount)
  }

  // ---------------------------------------------------------------------
  // Pass 2

  /** A bucket of pass 2: the edges seen so far (targets and fall-throughs
      together) and the four counters. */
  datatype EdgeTally = EdgeTally(seen: set<nat>, numTgts: nat, numTgtMisses: nat,
                                 numFalls: nat, numFallMisses: nat)

  /** One line of the "not exercised" listing: the bucket, the block start
      and the edge that was never a block start. */
  datatype MissLine = MissLine(bucket: nat, from: nat, to: nat)

  /** Pass-2 state: one tally per bucket and the listing written so far. */
  datatype CheckState = CheckState(tallies: seq<EdgeTally>, lines: seq<MissLine>)

  /** Offering one edge to a bucket's seen set. A first-seen edge bumps the
      target or fall-through counter, and the matching miss counter when it
      is not among the bucket's block starts; a miss is listed unless only a
      summary is wanted. */
  function Offer(t: EdgeTally, b: nat, from: nat, addr: nat, starts: set<nat>,
                 isTarget: bool, summary: bool): (EdgeTally, seq<MissLine>)
  {
    if addr in t.seen then (t, [])
    else
      var miss := if addr in starts then 0 else 1;
      var line := if addr !in starts && !summary then [MissLine(b, from, addr)] else [];
      if isTarget then
        (t.(seen := t.seen + {addr}, numTgts := t.numTgts + 1, numTgtMisses := t.numTgtMisses + miss), line)
      else
        (t.(seen := t.seen + {addr}, numFalls := t.numFalls + 1, numFallMisses := t.numFallMisses + miss), line)
  }

  function CheckStep(st: CheckState, p: seq<StartSet>, e: Entry, moduleCount: nat, summary: bool): CheckState
    requires InTable(e, moduleCount) && |p| == moduleCount + 1 && |st.tallies| == moduleCount + 1
  {
    if e.cbrTgt == 0 then st
    else
      var b := Bucket(e, moduleCount);
      var tgt := Offer(st.tallies[b], b, e.start, e.cbrTgt, p[b].starts, true, summary);
      var fall := Offer(tgt.0, b, e.start, FallThrough(e), p[b].starts, false, summary);
      CheckState(st.tallies[b := fall.0], st.lines + tgt.1 + fall.1)
  }

  /** Pass 2: every record with a conditional branch, in table order, offers
      its target and then its fall-through. */
  function Check(recs: seq<Entry>, moduleCount: nat, p: seq<StartSet>, summary: bool): (st: CheckState)
    requires AllInTable(recs, moduleCount) && |p| == moduleCount + 1
    ensures |st.tallies| == moduleCount + 1
  {
    if |recs| == 0 then CheckState(seq(moduleCount + 1, _ => EdgeTally({}, 0, 0, 0, 0)), [])
    else
      var n := |recs| - 1;
      assert forall k :: 0 <= k < n ==> recs[..n][k] == recs[k];
      CheckStep(Check(recs[..n], moduleCount, p, summary), p, recs[n], moduleCount, summary)
  }

  // ---------------------------------------------------------------------
  // The report

  /** The numbers reported for one bucket. */
  datatype ModuleStats = ModuleStats(numBbs: nat, numTgts: nat, numTgtMisses: nat,
                                     numFalls: nat, numFallMisses: nat)

  /** The outcome of the check: per-bucket numbers, the listing of edges not
      exercised, and whether the unknown-module bucket is printed (only when
      it holds a block). */
  datatype Report = Report(stats: seq<ModuleStats>, misses: seq<MissLine>, showUnknown: bool)

  function CheckCbr(recs: seq<Entry>, moduleCount: nat, summary: bool): (r: Report)
    requires AllInTable(recs, moduleCount)
    ensures |r.stats| == moduleCount + 1
  {
    var p := Fill(recs, moduleCount);
    var st := Check(recs, moduleCount, p, summary);
    var stats := seq(moduleCount + 1, m requires 0 <= m <= moduleCount =>
      ModuleStats(p[m].numBbs, st.tallies[m].numTgts, st.tallies[m].numTgtMisses,
                  st.tallies[m].numFalls, st.tallies[m].numFallMisses));
    Report(stats, st.lines, stats[moduleCount].numBbs != 0)
  }

  // ---------------------------------------------------------------------
  // Properties

  lemma StartsOfSnoc(recs: seq<Entry>, moduleCount: nat, m: nat)
    requires |recs| > 0 && AllInTable(recs, moduleCount)
    ensures var n := |recs| - 1;
      AllInTable(recs[..n], moduleCount)
      && StartsOf(recs, moduleCount, m)
         == StartsOf(recs[..n], moduleCount, m)
            + (if Bucket(recs[n], moduleCount) == m then {recs[n].start} else {})
  {
    var n := |recs| - 1;
    var front := recs[..n];
    assert forall k :: 0 <= k < n ==> front[k] == recs[k];
    var lhs := StartsOf(recs, moduleCount, m);
    var rhs := StartsOf(front, moduleCount, m)
               + (if Bucket(recs[n], moduleCount) == m then {recs[n].start} else {});
    forall x | x in lhs ensures x in rhs {
      var k :| 0 <= k < |recs| && Bucket(recs[k], moduleCount) == m && recs[k].start == x;
      if k < n {
        assert front[k] == recs[k];
      }
    }
    forall x | x in rhs ensures x in lhs {
      if x in StartsOf(front, moduleCount, m) {
        var k :| 0 <= k < n && Bucket(front[k], moduleCount) == m && front[k].start == x;
        assert recs[k] == front[k];
      } else {
        assert Bucket(recs[n], moduleCount) == m && x == recs[n].start;
      }
    }
  }

  /** After pass 1 a bucket holds exactly the distinct starts of its records,
      and its count is their number: repeated records do not inflate it. */
  lemma {:induction false} FillBucket(recs: seq<Entry>, moduleCount: nat, m: nat)
    requires AllInTable(recs, moduleCount) && m <= moduleCount
    ensures var p := Fill(recs, moduleCount);
      p[m].starts == StartsOf(recs, moduleCount, m) && p[m].numBbs == |p[m].starts|
  {
    if |recs| > 0 {
      var n := |recs| - 1;
      StartsOfSnoc(recs, moduleCount, m);
      FillBucket(recs[..n], moduleCount, m);
    }
  }

  /** Pass 1 for every bucket at once. */
  lemma FillCountsDistinctStarts(recs: seq<Entry>, moduleCount: nat)
    requires AllInTable(recs, moduleCount)
    ensures var p := Fill(recs, moduleCount);
      forall m :: 0 <= m <= moduleCount ==>
        p[m].starts == StartsOf(recs, moduleCount, m) && p[m].numBbs == |p[m].starts|
  {
    forall m | 0 <= m <= moduleCount
      ensures Fill(recs, moduleCount)[m].starts == StartsOf(recs, moduleCount, m)
      ensures Fill(recs, moduleCount)[m].numBbs == |Fill(recs, moduleCount)[m].starts|
    {
      FillBucket(recs, moduleCount, m);
    }
  }

  lemma TargetsOfSnoc(recs: seq<Entry>, moduleCount: nat, m: nat)
    requires |recs| > 0 && AllInTable(recs, moduleCount)
    ensures var n := |recs| - 1;
      var e := recs[n];
      AllInTable(recs[..n], moduleCount)
      && TargetsOf(recs, moduleCount, m)
         == TargetsOf(recs[..n], moduleCount, m)
            + (if e.cbrTgt != 0 && Bucket(e, moduleCount) == m then {e.cbrTgt} else {})
  {
    var n := |recs| - 1;
    var front := recs[..n];
    assert forall k :: 0 <= k < n ==> front[k] == recs[k];
    forall x | x in TargetsOf(recs, moduleCount, m)
      ensures x in TargetsOf(front, moduleCount, m) || x == recs[n].cbrTgt
    {
      var k :| 0 <= k < |recs| && recs[k].cbrTgt != 0 && Bucket(recs[k], moduleCount) == m && x == recs[k].cbrTgt;
      if k < n {
        assert front[k] == recs[k];
      }
    }
    forall x | x in TargetsOf(front, moduleCount, m)
      ensures x in TargetsOf(recs, moduleCount, m)
    {
      var k :| 0 <= k < n && front[k].cbrTgt != 0 && Bucket(front[k], moduleCount) == m && x == front[k].cbrTgt;
      assert recs[k] == front[k];
    }
  }

  lemma FallsOfSnoc(recs: seq<Entry>, moduleCount: nat, m: nat)
    requires |recs| > 0 && AllInTable(recs, moduleCount)
    ensures var n := |recs| - 1;
      var e := recs[n];
      AllInTable(recs[..n], moduleCount)
      && FallsOf(recs, moduleCount, m)
         == FallsOf(recs[..n], moduleCount, m)
            + (if e.cbrTgt != 0 && Bucket(e, moduleCount) == m then {FallThrough(e)} else {})
  {
    var n := |recs| - 1;
    var front := recs[..n];
    assert forall k :: 0 <= k < n ==> front[k] == recs[k];
    forall x | x in FallsOf(recs, moduleCount, m)
      ensures x in FallsOf(front, moduleCount, m) || x == FallThrough(recs[n])
    {
      var k :| 0 <= k < |recs| && recs[k].cbrTgt != 0 && Bucket(recs[k], moduleCount) == m && x == FallThrough(recs[k]);
      if k < n {
        assert front[k] == recs[k];
      }
    }
    forall x | x in FallsOf(front, moduleCount, m)
      ensures x in FallsOf(recs, moduleCount, m)
    {
      var k :| 0 <= k < n && front[k].cbrTgt != 0 && Bucket(front[k], moduleCount) == m && x == FallThrough(front[k]);
      assert recs[k] == front[k];
    }
  }

  lemma EdgesOfSnoc(recs: seq<Entry>, moduleCount: nat, m: nat)
    requires |recs| > 0 && AllInTable(recs, moduleCount)
    ensures var n := |recs| - 1;
      var e := recs[n];
      AllInTable(recs[..n], moduleCount)
      && EdgesOf(recs, moduleCount, m)
         == EdgesOf(recs[..n], moduleCount, m)
            + (if e.cbrTgt != 0 && Bucket(e, moduleCount) == m then {e.cbrTgt, FallThrough(e)} else {})
  {
    TargetsOfSnoc(recs, moduleCount, m);
    FallsOfSnoc(recs, moduleCount, m);
  }


  /** The counting invariant of one pass-2 bucket. */
  predicate Consistent(t: EdgeTally, starts: set<nat>)
  {
    && t.numTgts + t.numFalls == |t.seen|
    && t.numTgtMisses + t.numFallMisses == |t.seen - starts|
    && t.numTgtMisses <= t.numTgts
    && t.numFallMisses <= t.numFalls
  }

  /** Offering an edge keeps the counting invariant, adds the edge to the seen
      set, and lists a line exactly when a first-seen edge misses. */
  lemma OfferKeepsConsistent(t: EdgeTally, b: nat, from: nat, addr: nat, starts: set<nat>,
                             isTarget: bool, summary: bool)
    requires Consistent(t, starts)
    ensures var (t', lines) := Offer(t, b, from, addr, starts, isTarget, summary);
      && Consistent(t', starts)
      && t'.seen == t.seen + {addr}
      && |lines| == (if summary then 0 else (t'.numTgtMisses + t'.numFallMisses) - (t.numTgtMisses + t.numFallMisses))
      && (isTarget ==> t'.numFalls == t.numFalls && t'.numFallMisses == t.numFallMisses)
      && (!isTarget ==> t'.numTgts == t.numTgts && t'.numTgtMisses == t.numTgtMisses)
      && forall k :: 0 <= k < |lines| ==> lines[k].bucket == b
  {
    if addr !in t.seen {
      var s' := t.seen + {addr};
      assert |s'| == |t.seen| + 1;
      if addr in starts {
        assert s' - starts == t.seen - starts;
      } else {
        assert s' - starts == (t.seen - starts) + {addr};
        assert |s' - starts| == |t.seen - starts| + 1;
      }
    } else {
      assert t.seen + {addr} == t.seen;
    }
  }

  /** The counters of one side of a bucket, bounded by the edges offered on
      that side (`own`) and on the other: an edge offered only on this side
      was counted here, and nothing was counted here that was not offered
      here. The same holds for the misses, leaving out the starts. */
  predicate SideBounds(count: nat, misses: nat, own: set<nat>, other: set<nat>, starts: set<nat>)
  {
    && |own - other| <= count <= |own|
    && |(own - other) - starts| <= misses <= |own - starts|
  }

  /** The per-side invariant of a pass-2 bucket that has been offered the
      targets `tgts` and the fall-throughs `falls`. */
  predicate SideSplit(t: EdgeTally, tgts: set<nat>, falls: set<nat>, starts: set<nat>)
  {
    && t.seen == tgts + falls
    && SideBounds(t.numTgts, t.numTgtMisses, tgts, falls, starts)
    && SideBounds(t.numFalls, t.numFallMisses, falls, tgts, starts)
  }

  lemma SubsetCard(a: set<nat>, b: set<nat>)
    requires a <= b
    ensures |a| <= |b|
  {
    assert b == a + (b - a);
  }

  /** Offering `x` on its own side: counted when it is new. */
  lemma SideOwn(count: nat, misses: nat, own: set<nat>, other: set<nat>, starts: set<nat>,
                x: nat, count': nat, misses': nat)
    requires SideBounds(count, misses, own, other, starts)
    requires x in own + other ==> count' == count && misses' == misses
    requires x !in own + other ==> count' == count + 1 && misses' == misses + (if x in starts then 0 else 1)
    ensures SideBounds(count', misses', own + {x}, other, starts)
  {
    var own' := own + {x};
    SubsetCard(own, own');
    SubsetCard(own - starts, own' - starts);
    if x in own + other {
      assert own' - other == own - other;
    } else {
      SideOwnNew(own, other, starts, x);
    }
  }

  /** The sets a new edge grows on its own side, each by exactly one, the
      misses only when the edge is not a start. */
  lemma SideOwnNew(own: set<nat>, other: set<nat>, starts: set<nat>, x: nat)
    requires x !in own + other
    ensures |own + {x}| == |own| + 1
    ensures |(own + {x}) - other| == |own - other| + 1
    ensures |((own + {x}) - other) - starts| == |(own - other) - starts| + (if x in starts then 0 else 1)
    ensures |(own + {x}) - starts| == |own - starts| + (if x in starts then 0 else 1)
  {
    var own' := own + {x};
    assert own' - other == (own - other) + {x};
    if x in starts {
      assert (own' - other) - starts == (own - other) - starts;
      assert own' - starts == own - starts;
    } else {
      assert (own' - other) - starts == ((own - other) - starts) + {x};
      assert own' - starts == (own - starts) + {x};
    }
  }

  /** Offering `x` on the other side leaves this side's counters within
      their bounds. */
  lemma SideOther(count: nat, misses: nat, own: set<nat>, other: set<nat>, starts: set<nat>, x: nat)
    requires SideBounds(count, misses, own, other, starts)
    ensures SideBounds(count, misses, own, other + {x}, starts)
  {
    SubsetCard(own - (other + {x}), own - other);
    SubsetCard((own - (other + {x})) - starts, (own - other) - starts);
  }

  /** Offering an edge keeps the per-side invariant, the edge joining the
      targets or the fall-throughs by the side it is offered on. */
  lemma OfferKeepsSplit(t: EdgeTally, b: nat, from: nat, addr: nat, starts: set<nat>,
                        isTarget: bool, summary: bool, tgts: set<nat>, falls: set<nat>)
    requires SideSplit(t, tgts, falls, starts)
    ensures SideSplit(Offer(t, b, from, addr, starts, isTarget, summary).0,
                      if isTarget then tgts + {addr} else tgts,
                      if isTarget then falls else falls + {addr}, starts)
  {
    var t' := Offer(t, b, from, addr, starts, isTarget, summary).0;
    var isNew := addr !in t.seen;
    var miss := if addr in starts then 0 else 1;
    assert t'.seen == t.seen + {addr};
    if isTarget {
      assert t'.numFalls == t.numFalls && t'.numFallMisses == t.numFallMisses;
      assert t'.numTgts == t.numTgts + (if isNew then 1 else 0);
      assert t'.numTgtMisses == t.numTgtMisses + (if isNew then miss else 0);
      SideOwn(t.numTgts, t.numTgtMisses, tgts, falls, starts, addr, t'.numTgts, t'.numTgtMisses);
      SideOther(t.numFalls, t.numFallMisses, falls, tgts, starts, addr);
    } else {
      assert t'.numTgts == t.numTgts && t'.numTgtMisses == t.numTgtMisses;
      assert t'.numFalls == t.numFalls + (if isNew then 1 else 0);
      assert t'.numFallMisses == t.numFallMisses + (if isNew then miss else 0);
      SideOwn(t.numFalls, t.numFallMisses, falls, tgts, starts, addr, t'.numFalls, t'.numFallMisses);
      SideOther(t.numTgts, t.numTgtMisses, tgts, falls, starts, addr);
    }
  }

  /** Offering an edge lists at most one line, in the offering bucket. */
  lemma OfferLines(t: EdgeTally, b: nat, from: nat, addr: nat, starts: set<nat>,
                   isTarget: bool, summary: bool)
    ensures var lines := Offer(t, b, from, addr, starts, isTarget, summary).1;
      |lines| <= 1 && forall k :: 0 <= k < |lines| ==> lines[k].bucket == b
  {
  }

  /** Number of listed misses of bucket `m`. */
  function LinesIn(lines: seq<MissLine>, m: nat): nat
  {
    if |lines| == 0 then 0
    else LinesIn(lines[..|lines| - 1], m) + (if lines[|lines| - 1].bucket == m then 1 else 0)
  }

  lemma {:induction false} LinesInAppend(a: seq<MissLine>, b: seq<MissLine>, m: nat)
    ensures LinesIn(a + b, m) == LinesIn(a, m) + LinesIn(b, m)
    decreases |b|
  {
    if |b| > 0 {
      var n := |b| - 1;
      assert (a + b)[..|a + b| - 1] == a + b[..n];
      assert (a + b)[|a + b| - 1] == b[n];
      LinesInAppend(a, b[..n], m);
      assert LinesIn(a + b, m) == LinesIn(a + b[..n], m) + (if b[n].bucket == m then 1 else 0);
    } else {
      assert a + b == a;
    }
  }

  lemma LinesInOther(lines: seq<MissLine>, b: nat, m: nat)
    requires forall k :: 0 <= k < |lines| ==> lines[k].bucket == b
    requires |lines| <= 1
    ensures LinesIn(lines, m) == if b == m then |lines| else 0
  {
  }

  /** The pass-2 invariant of bucket `m` for a state. */
  predicate BucketInvariant(st: CheckState, p: seq<StartSet>, summary: bool, m: nat)
    requires m < |st.tallies| && m < |p|
  {
    && (summary ==> st.lines == [])
    && Consistent(st.tallies[m], p[m].starts)
    && LinesIn(st.lines, m) == (if summary then 0 else st.tallies[m].numTgtMisses + st.tallies[m].numFallMisses)
  }

  /** One record's effect on the listing in pass 2. */
  lemma CheckStepLines(st: CheckState, p: seq<StartSet>, e: Entry, moduleCount: nat, summary: bool, m: nat)
    requires InTable(e, moduleCount) && |p| == moduleCount + 1 && |st.tallies| == moduleCount + 1
    requires m <= moduleCount
    requires summary ==> st.lines == []
    ensures var st' := CheckStep(st, p, e, moduleCount, summary);
      && (summary ==> st'.lines == [])
      && (Bucket(e, moduleCount) != m || e.cbrTgt == 0 ==> LinesIn(st'.lines, m) == LinesIn(st.lines, m))
      && (Bucket(e, moduleCount) == m && e.cbrTgt != 0 ==>
            LinesIn(st'.lines, m) == LinesIn(st.lines, m) + |st'.lines| - |st.lines|)
  {
    if e.cbrTgt != 0 {
      var b := Bucket(e, moduleCount);
      var tgt := Offer(st.tallies[b], b, e.start, e.cbrTgt, p[b].starts, true, summary);
      var fall := Offer(tgt.0, b, e.start, FallThrough(e), p[b].starts, false, summary);
      assert CheckStep(st, p, e, moduleCount, summary).lines == st.lines + tgt.1 + fall.1;
      OfferLines(st.tallies[b], b, e.start, e.cbrTgt, p[b].starts, true, summary);
      OfferLines(tgt.0, b, e.start, FallThrough(e), p[b].starts, false, summary);
      LinesInPair(st.lines, tgt.1, fall.1, b, m);
    }
  }

  /** Appending at most one line and then at most one more, both of bucket
      `b`, adds their number to the count of bucket `b` and nothing to the
      others. */
  lemma LinesInPair(lines: seq<MissLine>, x: seq<MissLine>, y: seq<MissLine>, b: nat, m: nat)
    requires |x| <= 1 && forall k :: 0 <= k < |x| ==> x[k].bucket == b
    requires |y| <= 1 && forall k :: 0 <= k < |y| ==> y[k].bucket == b
    ensures LinesIn(lines + x + y, m) == LinesIn(lines, m) + (if b == m then |x| + |y| else 0)
  {
    LinesInAppend(lines + x, y, m);
    LinesInAppend(lines, x, m);
    LinesInOther(x, b, m);
    LinesInOther(y, b, m);
  }

  /** A branching record's two offers, its target and then its
      fall-through, keep the counting invariant, add both edges to the seen
      set, and list one line per new miss. */
  lemma OfferPairConsistent(t: EdgeTally, b: nat, e: Entry, starts: set<nat>, summary: bool)
    requires Consistent(t, starts)
    ensures var tgt := Offer(t, b, e.start, e.cbrTgt, starts, true, summary);
      var fall := Offer(tgt.0, b, e.start, FallThrough(e), starts, false, summary);
      && Consistent(fall.0, starts)
      && fall.0.seen == t.seen + {e.cbrTgt, FallThrough(e)}
      && |tgt.1| + |fall.1|
         == (if summary then 0 else (fall.0.numTgtMisses + fall.0.numFallMisses) - (t.numTgtMisses + t.numFallMisses))
  {
    var (t1, l1) := Offer(t, b, e.start, e.cbrTgt, starts, true, summary);
    OfferKeepsConsistent(t, b, e.start, e.cbrTgt, starts, true, summary);
    var (t2, l2) := Offer(t1, b, e.start, FallThrough(e), starts, false, summary);
    OfferKeepsConsistent(t1, b, e.start, FallThrough(e), starts, false, summary);
    UnionPair(t.seen, e.cbrTgt, FallThrough(e));
  }

  lemma UnionPair(s: set<nat>, a: nat, b: nat)
    ensures (s + {a}) + {b} == s + {a, b}
  {
  }


  /** One record's effect on the tally of bucket `m` in pass 2. */
  lemma CheckStepTally(st: CheckState, p: seq<StartSet>, e: Entry, moduleCount: nat, summary: bool, m: nat)
    requires InTable(e, moduleCount) && |p| == moduleCount + 1 && |st.tallies| == moduleCount + 1
    requires m <= moduleCount
    requires Consistent(st.tallies[m], p[m].starts)
    ensures var st' := CheckStep(st, p, e, moduleCount, summary);
      && |st'.tallies| == moduleCount + 1
      && st'.tallies[m].seen
         == st.tallies[m].seen + (if e.cbrTgt != 0 && Bucket(e, moduleCount) == m then {e.cbrTgt, FallThrough(e)} else {})
      && Consistent(st'.tallies[m], p[m].starts)
      && (!summary ==>
            (st'.tallies[m].numTgtMisses + st'.tallies[m].numFallMisses)
            - (st.tallies[m].numTgtMisses + st.tallies[m].numFallMisses)
            == (if e.cbrTgt != 0 && Bucket(e, moduleCount) == m then |st'.lines| - |st.lines| else 0))
  {
    if e.cbrTgt != 0 {
      var b := Bucket(e, moduleCount);
      var tgt := Offer(st.tallies[b], b, e.start, e.cbrTgt, p[b].starts, true, summary);
      var fall := Offer(tgt.0, b, e.start, FallThrough(e), p[b].starts, false, summary);
      var st' := CheckState(st.tallies[b := fall.0], st.lines + tgt.1 + fall.1);
      assert CheckStep(st, p, e, moduleCount, summary) == st';
      if b == m {
        OfferPairConsistent(st.tallies[b], b, e, p[b].starts, summary);
        assert st'.tallies[m] == fall.0;
        assert |st'.lines| - |st.lines| == |tgt.1| + |fall.1|;
      } else {
        assert st'.tallies[m] == st.tallies[m];
      }
    }
  }

  /** One record's effect on bucket `m` in pass 2. */
  lemma CheckStepBucket(st: CheckState, p: seq<StartSet>, e: Entry, moduleCount: nat, summary: bool, m: nat)
    requires InTable(e, moduleCount) && |p| == moduleCount + 1 && |st.tallies| == moduleCount + 1
    requires m <= moduleCount
    requires BucketInvariant(st, p, summary, m)
    ensures var st' := CheckStep(st, p, e, moduleCount, summary);
      && |st'.tallies| == moduleCount + 1
      && st'.tallies[m].seen
         == st.tallies[m].seen + (if e.cbrTgt != 0 && Bucket(e, moduleCount) == m then {e.cbrTgt, FallThrough(e)} else {})
      && BucketInvariant(st', p, summary, m)
  {
    CheckStepLines(st, p, e, moduleCount, summary, m);
    CheckStepTally(st, p, e, moduleCount, summary, m);
  }

  /** After pass 2 a bucket has seen exactly the targets and fall-throughs
      of its branching records; each distinct edge is counted once across the
      two counters, a miss is counted for each one absent from the bucket's
      start set, and the listing holds one line per miss unless only a summary
      is wanted. */
  lemma {:induction false} CheckBucket(recs: seq<Entry>, moduleCount: nat,
                                      p: seq<StartSet>, summary: bool, m: nat)
    requires AllInTable(recs, moduleCount) && |p| == moduleCount + 1 && m <= moduleCount
    ensures var st := Check(recs, moduleCount, p, summary);
      st.tallies[m].seen == EdgesOf(recs, moduleCount, m) && BucketInvariant(st, p, summary, m)
  {
    if |recs| > 0 {
      var n := |recs| - 1;
      EdgesOfSnoc(recs, moduleCount, m);
      CheckBucket(recs[..n], moduleCount, p, summary, m);
      var st0 := Check(recs[..n], moduleCount, p, summary);
      assert Check(recs, moduleCount, p, summary) == CheckStep(st0, p, recs[n], moduleCount, summary);
      CheckStepBucket(st0, p, recs[n], moduleCount, summary, m);
      assert Check(recs, moduleCount, p, summary).tallies[m].seen
          == EdgesOf(recs[..n], moduleCount, m)
             + (if recs[n].cbrTgt != 0 && Bucket(recs[n], moduleCount) == m
                then {recs[n].cbrTgt, FallThrough(recs[n])} else {});
    }
  }
  /** One record's effect on the per-side invariant of bucket `m`. */
  lemma CheckStepSplit(st: CheckState, p: seq<StartSet>, e: Entry, moduleCount: nat, summary: bool, m: nat,
                       tgts: set<nat>, falls: set<nat>)
    requires InTable(e, moduleCount) && |p| == moduleCount + 1 && |st.tallies| == moduleCount + 1
    requires m <= moduleCount
    requires SideSplit(st.tallies[m], tgts, falls, p[m].starts)
    ensures var own := e.cbrTgt != 0 && Bucket(e, moduleCount) == m;
      SideSplit(CheckStep(st, p, e, moduleCount, summary).tallies[m],
                tgts + (if own then {e.cbrTgt} else {}),
                falls + (if own then {FallThrough(e)} else {}), p[m].starts)
  {
    if e.cbrTgt != 0 {
      var b := Bucket(e, moduleCount);
      var tgt := Offer(st.tallies[b], b, e.start, e.cbrTgt, p[b].starts, true, summary);
      var fall := Offer(tgt.0, b, e.start, FallThrough(e), p[b].starts, false, summary);
      assert CheckStep(st, p, e, moduleCount, summary).tallies == st.tallies[b := fall.0];
      if b == m {
        OfferKeepsSplit(st.tallies[m], m, e.start, e.cbrTgt, p[m].starts, true, summary, tgts, falls);
        OfferKeepsSplit(tgt.0, m, e.start, FallThrough(e), p[m].starts, false, summary, tgts + {e.cbrTgt}, falls);
      } else {
        assert tgts + {} == tgts && falls + {} == falls;
      }
    } else {
      assert tgts + {} == tgts && falls + {} == falls;
    }
  }

  /** After pass 2 a bucket's target and fall-through counters are bounded
      by the targets and fall-throughs of its branching records, whatever
      the order of the records. */
  lemma {:induction false} CheckSplit(recs: seq<Entry>, moduleCount: nat,
                                      p: seq<StartSet>, summary: bool, m: nat)
    requires AllInTable(recs, moduleCount) && |p| == moduleCount + 1 && m <= moduleCount
    ensures SideSplit(Check(recs, moduleCount, p, summary).tallies[m],
                      TargetsOf(recs, moduleCount, m), FallsOf(recs, moduleCount, m), p[m].starts)
  {
    if |recs| > 0 {
      var n := |recs| - 1;
      var e := recs[n];
      var front := recs[..n];
      TargetsOfSnoc(recs, moduleCount, m);
      FallsOfSnoc(recs, moduleCount, m);
      CheckSplit(front, moduleCount, p, summary, m);
      var st0 := Check(front, moduleCount, p, summary);
      assert Check(recs, moduleCount, p, summary) == CheckStep(st0, p, e, moduleCount, summary);
      CheckStepSplit(st0, p, e, moduleCount, summary, m,
                     TargetsOf(front, moduleCount, m), FallsOf(front, moduleCount, m));
    }
  }


  /** The reported numbers, stated against the record table alone: per
      bucket, the distinct starts; the distinct edges, each counted once
      across targets and fall-throughs; the edges never seen as a start, each
      counted once across the two miss counters, no miss counter exceeding
      its count; and one listed line per miss unless only a summary is
      wanted. */
  lemma CheckCbrCounts(recs: seq<Entry>, moduleCount: nat, summary: bool)
    requires AllInTable(recs, moduleCount)
    ensures var r := CheckCbr(recs, moduleCount, summary);
      && (summary ==> r.misses == [])
      && forall m :: 0 <= m <= moduleCount ==>
           var s := r.stats[m];
           && s.numBbs == |StartsOf(recs, moduleCount, m)|
           && s.numTgts + s.numFalls == |EdgesOf(recs, moduleCount, m)|
           && s.numTgtMisses + s.numFallMisses == |EdgesOf(recs, moduleCount, m) - StartsOf(recs, moduleCount, m)|
           && s.numTgtMisses <= s.numTgts
           && s.numFallMisses <= s.numFalls
           && (!summary ==> LinesIn(r.misses, m) == s.numTgtMisses + s.numFallMisses)
    // each side on its own, bounded independently of the record order
    ensures var r := CheckCbr(recs, moduleCount, summary);
      forall m :: 0 <= m <= moduleCount ==>
        var s := r.stats[m];
        var tgts := TargetsOf(recs, moduleCount, m);
        var falls := FallsOf(recs, moduleCount, m);
        var starts := StartsOf(recs, moduleCount, m);
        && |tgts - falls| <= s.numTgts <= |tgts|
        && |falls - tgts| <= s.numFalls <= |falls|
        && |(tgts - falls) - starts| <= s.numTgtMisses <= |tgts - starts|
        && |(falls - tgts) - starts| <= s.numFallMisses <= |falls - starts|
  {
    var p := Fill(recs, moduleCount);
    var r := CheckCbr(recs, moduleCount, summary);
    CheckBucket(recs, moduleCount, p, summary, 0);
    forall m | 0 <= m <= moduleCount
      ensures var s := r.stats[m];
        && s.numBbs == |StartsOf(recs, moduleCount, m)|
        && s.numTgts + s.numFalls == |EdgesOf(recs, moduleCount, m)|
        && s.numTgtMisses + s.numFallMisses == |EdgesOf(recs, moduleCount, m) - StartsOf(recs, moduleCount, m)|
        && s.numTgtMisses <= s.numTgts
        && s.numFallMisses <= s.numFalls
        && (!summary ==> LinesIn(r.misses, m) == s.numTgtMisses + s.numFallMisses)
    {
      FillBucket(recs, moduleCount, m);
      CheckBucket(recs, moduleCount, p, summary, m);
    }
    forall m | 0 <= m <= moduleCount
      ensures SideBounds(r.stats[m].numTgts, r.stats[m].numTgtMisses, TargetsOf(recs, moduleCount, m),
                         FallsOf(recs, moduleCount, m), StartsOf(recs, moduleCount, m))
      ensures SideBounds(r.stats[m].numFalls, r.stats[m].numFallMisses, FallsOf(recs, moduleCount, m),
                         TargetsOf(recs, moduleCount, m), StartsOf(recs, moduleCount, m))
    {
      CheckCbrSidesAt(recs, moduleCount, summary, m);
    }
  }

  /** The per-side bounds of one bucket's printed numbers. */
  lemma CheckCbrSidesAt(recs: seq<Entry>, moduleCount: nat, summary: bool, m: nat)
    requires AllInTable(recs, moduleCount) && m <= moduleCount
    ensures var s := CheckCbr(recs, moduleCount, summary).stats[m];
      var tgts := TargetsOf(recs, moduleCount, m);
      var falls := FallsOf(recs, moduleCount, m);
      var starts := StartsOf(recs, moduleCount, m);
      && SideBounds(s.numTgts, s.numTgtMisses, tgts, falls, starts)
      && SideBounds(s.numFalls, s.numFallMisses, falls, tgts, starts)
  {
    var p := Fill(recs, moduleCount);
    FillBucket(recs, moduleCount, m);
    CheckSplit(recs, moduleCount, p, summary, m);
  }

  /** Duplicates are kept in the table but change nothing in the report:
      appending a copy of a record already present leaves every number and
      the listing as they were. */
  lemma CheckCbrIgnoresDuplicates(recs: seq<Entry>, moduleCount: nat, summary: bool, k: nat)
    requires AllInTable(recs, moduleCount) && k < |recs|
    ensures AllInTable(recs + [recs[k]], moduleCount)
    ensures CheckCbr(recs + [recs[k]], moduleCount, summary) == CheckCbr(recs, moduleCount, summary)
  {
    FillIgnoresDuplicate(recs, moduleCount, k);
    CheckIgnoresDuplicate(recs, moduleCount, summary, k);
  }

  /** Pass 1 is unchanged by a copy of a record already present. */
  lemma FillIgnoresDuplicate(recs: seq<Entry>, moduleCount: nat, k: nat)
    requires AllInTable(recs, moduleCount) && k < |recs|
    ensures AllInTable(recs + [recs[k]], moduleCount)
    ensures Fill(recs + [recs[k]], moduleCount) == Fill(recs, moduleCount)
  {
    var e := recs[k];
    var recs' := recs + [e];
    assert recs'[..|recs|] == recs;
    FillCountsDistinctStarts(recs, moduleCount);
    assert e.start in StartsOf(recs, moduleCount, Bucket(e, moduleCount));
  }

  /** Pass 2, over the buckets of pass 1, is unchanged by a copy of a record
      already present. */
  lemma CheckIgnoresDuplicate(recs: seq<Entry>, moduleCount: nat, summary: bool, k: nat)
    requires AllInTable(recs, moduleCount) && k < |recs|
    ensures AllInTable(recs + [recs[k]], moduleCount)
    ensures var p := Fill(recs, moduleCount);
      Check(recs + [recs[k]], moduleCount, p, summary) == Check(recs, moduleCount, p, summary)
  {
    var e := recs[k];
    var recs' := recs + [e];
    assert recs'[..|recs|] == recs;
    var p := Fill(recs, moduleCount);
    var st := Check(recs, moduleCount, p, summary);
    assert Check(recs', moduleCount, p, summary) == CheckStep(st, p, e, moduleCount, summary);
    if e.cbrTgt != 0 {
      var b := Bucket(e, moduleCount);
      CheckSeen(recs, moduleCount, p, summary, b);
      var t := st.tallies[b];
      assert e.cbrTgt in t.seen && FallThrough(e) in t.seen;
      assert Offer(t, b, e.start, e.cbrTgt, p[b].starts, true, summary) == (t, []);
      assert Offer(t, b, e.start, FallThrough(e), p[b].starts, false, summary) == (t, []);
      assert st.tallies[b := t] == st.tallies;
      assert st.lines + [] + [] == st.lines;
    }
  }

  /** After pass 2 a bucket has seen exactly the edges of its branching
      records. */
  lemma CheckSeen(recs: seq<Entry>, moduleCount: nat, p: seq<StartSet>, summary: bool, m: nat)
    requires AllInTable(recs, moduleCount) && |p| == moduleCount + 1 && m <= moduleCount
    ensures Check(recs, moduleCount, p, summary).tallies[m].seen == EdgesOf(recs, moduleCount, m)
  {
    CheckBucket(recs, moduleCount, p, summary, m);
  }

  /** A bucket has a start exactly when one of the records falls in it. */
  lemma StartsNonEmptyIff(recs: seq<Entry>, moduleCount: nat, m: nat)
    requires AllInTable(recs, moduleCount)
    ensures |StartsOf(recs, moduleCount, m)| != 0
        <==> exists k :: 0 <= k < |recs| && Bucket(recs[k], moduleCount) == m
  {
    if exists k :: 0 <= k < |recs| && Bucket(recs[k], moduleCount) == m {
      var k :| 0 <= k < |recs| && Bucket(recs[k], moduleCount) == m;
      assert recs[k].start in StartsOf(recs, moduleCount, m);
    }
  }

  /** The unknown-module bucket is reported exactly when some record has no
      known module. */
  lemma CheckCbrShowsUnknown(recs: seq<Entry>, moduleCount: nat, summary: bool)
    requires AllInTable(recs, moduleCount)
    ensures CheckCbr(recs, moduleCount, summary).showUnknown
        <==> exists k :: 0 <= k < |recs| && recs[k].modId == UNKNOWN_MOD_ID
  {
    FillBucket(recs, moduleCount, moduleCount);
    StartsNonEmptyIff(recs, moduleCount, moduleCount);
  }

  // ---------------------------------------------------------------------
  // The listing's content

  /** Every listed line is a miss of its bucket: an edge the bucket has seen
      that is not among its starts. */
  predicate ListingSound(st: CheckState, p: seq<StartSet>)
  {
    forall i :: 0 <= i < |st.lines| ==>
      && st.lines[i].bucket < |st.tallies|
      && st.lines[i].bucket < |p|
      && st.lines[i].to in st.tallies[st.lines[i].bucket].seen
      && st.lines[i].to !in p[st.lines[i].bucket].starts
  }

  /** No edge is listed twice for the same bucket. */
  predicate ListingDistinct(lines: seq<MissLine>)
  {
    forall i, j :: 0 <= i < j < |lines| && lines[i].bucket == lines[j].bucket ==> lines[i].to != lines[j].to
  }

  /** Every miss of every bucket is listed. */
  predicate ListingComplete(st: CheckState, p: seq<StartSet>)
  {
    forall b, x :: 0 <= b < |st.tallies| && b < |p| && x in st.tallies[b].seen && x !in p[b].starts ==>
      exists i :: 0 <= i < |st.lines| && st.lines[i].bucket == b && st.lines[i].to == x
  }

  predicate ListingInvariant(st: CheckState, p: seq<StartSet>, summary: bool)
  {
    ListingSound(st, p) && ListingDistinct(st.lines) && (!summary ==> ListingComplete(st, p))
  }

  /** Offering an edge adds it to the seen set and lists exactly a first-seen
      miss. */
  lemma OfferExact(t: EdgeTally, b: nat, from: nat, addr: nat, starts: set<nat>,
                   isTarget: bool, summary: bool)
    ensures var (t', lines) := Offer(t, b, from, addr, starts, isTarget, summary);
      && t'.seen == t.seen + {addr}
      && lines == if addr !in t.seen && addr !in starts && !summary then [MissLine(b, from, addr)] else []
  {
  }

  /** The lines one branching record adds: its target if first seen and
      missed, then its fall-through if first seen (also after the target)
      and missed. */
  function NewLines(seen: set<nat>, starts: set<nat>, b: nat, from: nat, tgt: nat, fall: nat,
                    summary: bool): seq<MissLine>
  {
    (if tgt !in seen && tgt !in starts && !summary then [MissLine(b, from, tgt)] else [])
    + (if fall !in seen + {tgt} && fall !in starts && !summary then [MissLine(b, from, fall)] else [])
  }

  /** What one branching record does in pass 2: only its bucket's seen set
      changes, growing by its two edges, and the new lines are appended. */
  lemma CheckStepShape(st: CheckState, p: seq<StartSet>, e: Entry, moduleCount: nat, summary: bool)
    requires InTable(e, moduleCount) && |p| == moduleCount + 1 && |st.tallies| == moduleCount + 1
    requires e.cbrTgt != 0
    ensures var b := Bucket(e, moduleCount);
      var st' := CheckStep(st, p, e, moduleCount, summary);
      && |st'.tallies| == |st.tallies|
      && (forall c :: 0 <= c < |st.tallies| && c != b ==> st'.tallies[c] == st.tallies[c])
      && st'.tallies[b].seen == st.tallies[b].seen + {e.cbrTgt, FallThrough(e)}
      && st'.lines == st.lines + NewLines(st.tallies[b].seen, p[b].starts, b, e.start, e.cbrTgt, FallThrough(e), summary)
  {
    var b := Bucket(e, moduleCount);
    var t0 := st.tallies[b];
    var tgt := Offer(t0, b, e.start, e.cbrTgt, p[b].starts, true, summary);
    OfferExact(t0, b, e.start, e.cbrTgt, p[b].starts, true, summary);
    OfferExact(tgt.0, b, e.start, FallThrough(e), p[b].starts, false, summary);
  }

  /** The listing invariant survives appending a record's new lines. */
  lemma ListingStep(st: CheckState, st': CheckState, p: seq<StartSet>, b: nat, from: nat,
                    tgt: nat, fall: nat, summary: bool)
    requires ListingInvariant(st, p, summary)
    requires b < |st.tallies| && b < |p|
    requires |st'.tallies| == |st.tallies|
    requires forall c :: 0 <= c < |st.tallies| && c != b ==> st'.tallies[c] == st.tallies[c]
    requires st'.tallies[b].seen == st.tallies[b].seen + {tgt, fall}
    requires st'.lines == st.lines + NewLines(st.tallies[b].seen, p[b].starts, b, from, tgt, fall, summary)
    ensures ListingInvariant(st', p, summary)
  {
    ListingStepSound(st, st', p, b, from, tgt, fall, summary);
    ListingStepDistinct(st, st', p, b, from, tgt, fall, summary);
    if !summary {
      ListingStepComplete(st, st', p, b, from, tgt, fall, summary);
    }
  }

  lemma ListingStepSound(st: CheckState, st': CheckState, p: seq<StartSet>, b: nat, from: nat,
                         tgt: nat, fall: nat, summary: bool)
    requires ListingSound(st, p)
    requires b < |st.tallies| && b < |p|
    requires |st'.tallies| == |st.tallies|
    requires forall c :: 0 <= c < |st.tallies| && c != b ==> st'.tallies[c] == st.tallies[c]
    requires st'.tallies[b].seen == st.tallies[b].seen + {tgt, fall}
    requires st'.lines == st.lines + NewLines(st.tallies[b].seen, p[b].starts, b, from, tgt, fall, summary)
    ensures ListingSound(st', p)
  {
    var n := |st.lines|;
    forall i | 0 <= i < |st'.lines|
      ensures st'.lines[i].bucket < |st'.tallies| && st'.lines[i].bucket < |p|
      ensures st'.lines[i].to in st'.tallies[st'.lines[i].bucket].seen
      ensures st'.lines[i].to !in p[st'.lines[i].bucket].starts
    {
      if i < n {
        assert st'.lines[i] == st.lines[i];
      } else {
        assert st'.lines[i] in NewLines(st.tallies[b].seen, p[b].starts, b, from, tgt, fall, summary);
      }
    }
  }

  lemma ListingStepDistinct(st: CheckState, st': CheckState, p: seq<StartSet>, b: nat, from: nat,
                            tgt: nat, fall: nat, summary: bool)
    requires ListingSound(st, p) && ListingDistinct(st.lines)
    requires b < |st.tallies| && b < |p|
    requires st'.lines == st.lines + NewLines(st.tallies[b].seen, p[b].starts, b, from, tgt, fall, summary)
    ensures ListingDistinct(st'.lines)
  {
    var n := |st.lines|;
    var added := NewLines(st.tallies[b].seen, p[b].starts, b, from, tgt, fall, summary);
    assert forall j :: 0 <= j < |added| ==> added[j].bucket == b && added[j].to !in st.tallies[b].seen;
    assert |added| == 2 ==> added[0].to != added[1].to;
    forall i, j | 0 <= i < j < |st'.lines| && st'.lines[i].bucket == st'.lines[j].bucket
      ensures st'.lines[i].to != st'.lines[j].to
    {
      if j < n {
        assert st'.lines[i] == st.lines[i] && st'.lines[j] == st.lines[j];
      } else if i < n {
        assert st'.lines[i] == st.lines[i] && st'.lines[j] == added[j - n];
      } else {
        assert st'.lines[i] == added[i - n] && st'.lines[j] == added[j - n];
      }
    }
  }

  lemma ListingStepComplete(st: CheckState, st': CheckState, p: seq<StartSet>, b: nat, from: nat,
                            tgt: nat, fall: nat, summary: bool)
    requires ListingComplete(st, p) && !summary
    requires b < |st.tallies| && b < |p|
    requires |st'.tallies| == |st.tallies|
    requires forall c :: 0 <= c < |st.tallies| && c != b ==> st'.tallies[c] == st.tallies[c]
    requires st'.tallies[b].seen == st.tallies[b].seen + {tgt, fall}
    requires st'.lines == st.lines + NewLines(st.tallies[b].seen, p[b].starts, b, from, tgt, fall, summary)
    ensures ListingComplete(st', p)
  {
    var n := |st.lines|;
    var seen := st.tallies[b].seen;
    forall c, x | 0 <= c < |st'.tallies| && c < |p| && x in st'.tallies[c].seen && x !in p[c].starts
      ensures exists i :: 0 <= i < |st'.lines| && st'.lines[i].bucket == c && st'.lines[i].to == x
    {
      if c != b || x in seen {
        assert x in st.tallies[c].seen;
        var i :| 0 <= i < n && st.lines[i].bucket == c && st.lines[i].to == x;
        assert st'.lines[i] == st.lines[i];
      } else if x == tgt {
        assert st'.lines[n] == MissLine(b, from, x);
      } else {
        assert st'.lines[|st'.lines| - 1] == MissLine(b, from, x);
      }
    }
  }

  /** One record's effect on the listing invariant in pass 2. */
  lemma CheckStepListing(st: CheckState, p: seq<StartSet>, e: Entry, moduleCount: nat, summary: bool)
    requires InTable(e, moduleCount) && |p| == moduleCount + 1 && |st.tallies| == moduleCount + 1
    requires ListingInvariant(st, p, summary)
    ensures ListingInvariant(CheckStep(st, p, e, moduleCount, summary), p, summary)
  {
    if e.cbrTgt != 0 {
      CheckStepShape(st, p, e, moduleCount, summary);
      ListingStep(st, CheckStep(st, p, e, moduleCount, summary), p, Bucket(e, moduleCount),
                  e.start, e.cbrTgt, FallThrough(e), summary);
    }
  }

  /** The listing invariant holds after pass 2. */
  lemma {:induction false} CheckListing(recs: seq<Entry>, moduleCount: nat, p: seq<StartSet>, summary: bool)
    requires AllInTable(recs, moduleCount) && |p| == moduleCount + 1
    ensures ListingInvariant(Check(recs, moduleCount, p, summary), p, summary)
  {
    if |recs| > 0 {
      var n := |recs| - 1;
      assert AllInTable(recs[..n], moduleCount) by {
        assert forall k :: 0 <= k < n ==> recs[..n][k] == recs[k];
      }
      CheckListing(recs[..n], moduleCount, p, summary);
      var st0 := Check(recs[..n], moduleCount, p, summary);
      assert Check(recs, moduleCount, p, summary) == CheckStep(st0, p, recs[n], moduleCount, summary);
      CheckStepListing(st0, p, recs[n], moduleCount, summary);
    }
  }

  /** A listed line comes from a branching record of its bucket: the record's
      start and one of its two edges. */
  predicate FromBranch(l: MissLine, e: Entry, moduleCount: nat)
    requires InTable(e, moduleCount)
  {
    e.cbrTgt != 0 && Bucket(e, moduleCount) == l.bucket && e.start == l.from
    && (l.to == e.cbrTgt || l.to == FallThrough(e))
  }

  predicate LinesFrom(lines: seq<MissLine>, recs: seq<Entry>, moduleCount: nat)
    requires AllInTable(recs, moduleCount)
  {
    forall i :: 0 <= i < |lines| ==> exists k :: 0 <= k < |recs| && FromBranch(lines[i], recs[k], moduleCount)
  }

  lemma {:induction false} CheckListingFrom(recs: seq<Entry>, moduleCount: nat, p: seq<StartSet>, summary: bool)
    requires AllInTable(recs, moduleCount) && |p| == moduleCount + 1
    ensures LinesFrom(Check(recs, moduleCount, p, summary).lines, recs, moduleCount)
  {
    if |recs| > 0 {
      var n := |recs| - 1;
      var front := recs[..n];
      assert forall k :: 0 <= k < n ==> front[k] == recs[k];
      CheckListingFrom(front, moduleCount, p, summary);
      var st0 := Check(front, moduleCount, p, summary);
      var st := Check(recs, moduleCount, p, summary);
      assert st == CheckStep(st0, p, recs[n], moduleCount, summary);
      var e := recs[n];
      forall i | 0 <= i < |st.lines|
        ensures exists k :: 0 <= k < |recs| && FromBranch(st.lines[i], recs[k], moduleCount)
      {
        if i < |st0.lines| {
          assert st.lines[i] == st0.lines[i];
          assert LinesFrom(st0.lines, front, moduleCount);
          assert exists k :: 0 <= k < |front| && FromBranch(st0.lines[i], front[k], moduleCount);
          var k :| 0 <= k < |front| && FromBranch(st0.lines[i], front[k], moduleCount);
          assert FromBranch(st.lines[i], recs[k], moduleCount);
        } else {
          var b := Bucket(e, moduleCount);
          var tgt := Offer(st0.tallies[b], b, e.start, e.cbrTgt, p[b].starts, true, summary);
          OfferExact(st0.tallies[b], b, e.start, e.cbrTgt, p[b].starts, true, summary);
          OfferExact(tgt.0, b, e.start, FallThrough(e), p[b].starts, false, summary);
          assert FromBranch(st.lines[i], recs[n], moduleCount);
        }
      }
    }
  }

  /** The listing, stated against the records alone: each line names a bucket,
      the start of a branching record of that bucket and one of its edges,
      an edge that is not a start of the bucket; no edge is listed twice for
      a bucket; and, unless only a summary is wanted, every such edge is
      listed. */
  lemma CheckCbrListing(recs: seq<Entry>, moduleCount: nat, summary: bool)
    requires AllInTable(recs, moduleCount)
    ensures var lines := CheckCbr(recs, moduleCount, summary).misses;
      && (forall i :: 0 <= i < |lines| ==>
            && lines[i].bucket <= moduleCount
            && lines[i].to in EdgesOf(recs, moduleCount, lines[i].bucket)
            && lines[i].to !in StartsOf(recs, moduleCount, lines[i].bucket)
            && exists k :: 0 <= k < |recs| && FromBranch(lines[i], recs[k], moduleCount))
      && ListingDistinct(lines)
      && (!summary ==>
            forall m, x :: 0 <= m <= moduleCount && x in EdgesOf(recs, moduleCount, m)
                           && x !in StartsOf(recs, moduleCount, m) ==>
              exists i :: 0 <= i < |lines| && lines[i].bucket == m && lines[i].to == x)
  {
    var p := Fill(recs, moduleCount);
    var st := Check(recs, moduleCount, p, summary);
    assert CheckCbr(recs, moduleCount, summary).misses == st.lines;
    CheckListing(recs, moduleCount, p, summary);
    CheckListingFrom(recs, moduleCount, p, summary);
    forall m | 0 <= m <= moduleCount
      ensures p[m].starts == StartsOf(recs, moduleCount, m)
      ensures st.tallies[m].seen == EdgesOf(recs, moduleCount, m)
    {
      FillBucket(recs, moduleCount, m);
      CheckBucket(recs, moduleCount, p, summary, m);
    }
    assert LinesFrom(st.lines, recs, moduleCount);
    forall i | 0 <= i < |st.lines|
      ensures st.lines[i].bucket <= moduleCount
      ensures st.lines[i].to in EdgesOf(recs, moduleCount, st.lines[i].bucket)
      ensures st.lines[i].to !in StartsOf(recs, moduleCount, st.lines[i].bucket)
      ensures exists k :: 0 <= k < |recs| && FromBranch(st.lines[i], recs[k], moduleCount)
    {
      var b := st.lines[i].bucket;
      assert b < |st.tallies| && st.lines[i].to in st.tallies[b].seen && st.lines[i].to !in p[b].starts;
    }
  }

  /** A worked example: in module 5, a block at 0x10 of 4 bytes branching to
      0x20, and a block at 0x20. The target is a block start; the
      fall-through 0x14 is not. */
  lemma TwoBlockExample()
    ensures var recs := [Entry(5, 0x10, 4, 0x20, 2, false), Entry(5, 0x20, 4, 0, 1, false)];
      AllInTable(recs, 6)
      && CheckCbr(recs, 6, false).stats[5] == ModuleStats(2, 1, 0, 1, 1)
      && CheckCbr(recs, 6, false).misses == [MissLine(5, 0x10, 0x14)]
  {
    var e0 := Entry(5, 0x10, 4, 0x20, 2, false);
    var e1 := Entry(5, 0x20, 4, 0, 1, false);
    var recs := [e0, e1];
    assert recs[..1] == [e0] && [e0][..0] == [];
    assert Bucket(e0, 6) == 5 && Bucket(e1, 6) == 5;
    var p0 := seq(7, _ => StartSet({}, 0));
    assert Fill([], 6) == p0;
    var p1 := p0[5 := StartSet({0x10}, 1)];
    assert p0[5] == StartSet({}, 0);
    assert p0[5].starts + {0x10} == {0x10};
    assert FillStep(p0, e0, 6) == p1;
    assert Fill([e0], 6) == FillStep(Fill([], 6), e0, 6);
    var p := p1[5 := StartSet({0x10, 0x20}, 2)];
    assert 0x20 !in p1[5].starts;
    assert p1[5].starts + {0x20} == {0x10, 0x20};
    assert FillStep(p1, e1, 6) == p;
    assert Fill(recs, 6) == FillStep(Fill([e0], 6), e1, 6);
    var q0 := CheckState(seq(7, _ => EdgeTally({}, 0, 0, 0, 0)), []);
    assert Check([], 6, p, false) == q0;
    assert FallThrough(e0) == 0x14;
    var q1 := CheckState(q0.tallies[5 := EdgeTally({0x20, 0x14}, 1, 0, 1, 1)], [MissLine(5, 0x10, 0x14)]);
    assert q0.tallies[5] == EdgeTally({}, 0, 0, 0, 0);
    var tgt := Offer(q0.tallies[5], 5, 0x10, 0x20, p[5].starts, true, false);
    assert 0x20 in p[5].starts && 0x20 !in q0.tallies[5].seen;
    assert q0.tallies[5].seen + {0x20} == {0x20};
    assert tgt == (EdgeTally({0x20}, 1, 0, 0, 0), []);
    var fall := Offer(tgt.0, 5, 0x10, 0x14, p[5].starts, false, false);
    assert 0x14 !in p[5].starts && 0x14 !in tgt.0.seen;
    assert tgt.0.seen + {0x14} == {0x20, 0x14};
    assert fall == (EdgeTally({0x20, 0x14}, 1, 0, 1, 1), [MissLine(5, 0x10, 0x14)]);
    assert CheckStep(q0, p, e0, 6, false) == q1;
    assert Check([e0], 6, p, false) == CheckStep(Check([], 6, p, false), p, e0, 6, false);
    assert Check(recs, 6, p, false) == CheckStep(Check([e0], 6, p, false), p, e1, 6, false);
  }
}

=== FILE: logfile.dfy ===
/** Creating a log file under a fresh name: the names `prefix.NNNN.suffix`
    for NNNN = 0000, 0001, ... 9999 are tried in order, and the first one that
    can be created as a new file is taken. */
module LogFile {
  import opened Base

  /** How many numbered names are tried before giving up. */
  const MAX_LOG_ATTEMPTS: nat := 10000

  function Digit(d: nat): (c: char)
    requires d < 10
    ensures '0' <= c <= '9'
  {
    "0123456789"[d]
  }

  function Pow10(n: nat): nat
  {
    if n == 0 then 1 else 10 * Pow10(n - 1)
  }

  function DigitValue(c: char): nat
  {
    if '0' <= c <= '9' then (c as int - '0' as int) as nat else 0
  }

  /** The last `width` decimal digits of `i`, most significant first, leading
      zeros kept: `%04d` is `ZeroPad(i, 4)` for a number below 10000. */
  function ZeroPad(i: nat, width: nat): (s: string)
    ensures |s| == width
  {
    if width == 0 then [] else ZeroPad(i / 10, width - 1) + [Digit(i % 10)]
  }

  /** The value of a string of decimal digits, most significant first. */
  function DecimalValue(s: string): nat
  {
    if |s| == 0 then 0 else DecimalValue(s[..|s| - 1]) * 10 + DigitValue(s[|s| - 1])
  }

  /** The name tried at attempt `i`. */
  function LogFileName(prefix: string, i: nat, suffix: string): string
    requires i < MAX_LOG_ATTEMPTS
  {
    prefix + "." + ZeroPad(i, 4) + "." + suffix
  }

  lemma DigitRoundTrip(d: nat)
    requires d < 10
    ensures DigitValue(Digit(d)) == d
  {
  }

  /** Reading the digits back gives the number, for one that fits the width. */
  lemma {:induction false} ZeroPadRoundTrip(i: nat, width: nat)
    requires i < Pow10(width)
    ensures DecimalValue(ZeroPad(i, width)) == i
    decreases width
  {
    if width > 0 {
      var s := ZeroPad(i, width);
      assert s[..width - 1] == ZeroPad(i / 10, width - 1);
      ZeroPadRoundTrip(i / 10, width - 1);
      DigitRoundTrip(i % 10);
    }
  }

  /** Distinct attempts try distinct names, so no name is tried twice. */
  lemma LogFileNamesDistinct(prefix: string, suffix: string, i: nat, j: nat)
    requires i < MAX_LOG_ATTEMPTS && j < MAX_LOG_ATTEMPTS && i != j
    ensures LogFileName(prefix, i, suffix) != LogFileName(prefix, j, suffix)
  {
    var a := LogFileName(prefix, i, suffix);
    var b := LogFileName(prefix, j, suffix);
    var lo := |prefix| + 1;
    assert a[lo..lo + 4] == ZeroPad(i, 4);
    assert b[lo..lo + 4] == ZeroPad(j, 4);
    assert Pow10(4) == 10000;
    ZeroPadRoundTrip(i, 4);
    ZeroPadRoundTrip(j, 4);
  }

  /** The search: the index of the first name that opens as a new file, or
      `None` (an invalid file) when all of them are taken. `opensNew` says
      whether opening a name with "must be new" succeeds. */
  method CreateLogFile(prefix: string, suffix: string, opensNew: string -> bool) returns (index: Option<nat>)
    ensures index.Some? ==> index.value < MAX_LOG_ATTEMPTS && opensNew(LogFileName(prefix, index.value, suffix))
    ensures index.Some? ==> forall j :: 0 <= j < index.value ==> !opensNew(LogFileName(prefix, j, suffix))
    ensures index.None? ==> forall j :: 0 <= j < MAX_LOG_ATTEMPTS ==> !opensNew(LogFileName(prefix, j, suffix))
  {
    var i := 0;
    while i < MAX_LOG_ATTEMPTS
      invariant 0 <= i <= MAX_LOG_ATTEMPTS
      invariant forall j :: 0 <= j < i ==> !opensNew(LogFileName(prefix, j, suffix))
    {
      if opensNew(LogFileName(prefix, i, suffix)) {
        return Some(i);
      }
      i := i + 1;
    }
    return None;
  }
}

=== FILE: nudge.dfy ===
/** The Windows cross-process termination request: the terminating process
    packs "terminate" and the exit code into one 64-bit nudge argument, and the
    target process unpacks it and exits with that code. */
module Nudge {
  import opened Base

  /** The only nudge the collector sends and accepts. */
  const NUDGE_TERMINATE_PROCESS: bv64 := 1

  const LOW_HALF: bv64 := 0xFFFF_FFFF

  /** The C conversion `(int)x` of a 32-bit value: two's complement. */
  function ToInt32(x: bv32): (r: int)
    ensures -0x8000_0000 <= r < 0x8000_0000
    ensures FromInt32(r) == x as int
  {
    if x < 0x8000_0000 then x as int else x as int - UINT_RANGE
  }

  /** The 32 bits of an `int`, read back as unsigned. */
  function FromInt32(r: int): int
  {
    if r < 0 then r + UINT_RANGE else r
  }

  /** Packing a terminate request: `NUDGE_TERMINATE_PROCESS | exit_code << 32`.
      An exit code with a non-zero upper half cannot be carried. */
  function EncodeTerminate(exitCode: bv64): (r: Result<bv64, Fatal>)
    ensures r.Failure? <==> exitCode >> 32 != 0
    ensures r.Success? ==> r.value & LOW_HALF == NUDGE_TERMINATE_PROCESS && r.value >> 32 == exitCode
  {
    if exitCode >> 32 != 0 then Failure(ExitCodeTooWide)
    else Success(NUDGE_TERMINATE_PROCESS | (exitCode << 32))
  }

  /** The nudge event: the low 32 bits are the nudge kind and the high 32 bits
      the exit code, each read as a signed `int`. A terminate request exits
      the process with the carried code; any other nudge is an invariant
      violation. */
  function OnNudge(arg: bv64): (r: Result<int, Fatal>)
    ensures r.Success? <==> arg & LOW_HALF == NUDGE_TERMINATE_PROCESS
    ensures r.Success? ==> FromInt32(r.value) == ((arg >> 32) as bv32) as int
  {
    var nudgeArg := ToInt32((arg & LOW_HALF) as bv32);
    var exitArg := ToInt32((arg >> 32) as bv32);
    if nudgeArg == NUDGE_TERMINATE_PROCESS as int then Success(exitArg) else Failure(UnsupportedNudge)
  }

  /** The target exits with the exit code the terminating process passed, up
      to the reading of its 32 bits as a signed `int`. */
  lemma TerminateRoundTrip(exitCode: bv64)
    requires exitCode >> 32 == 0
    ensures EncodeTerminate(exitCode).Success?
    ensures exitCode <= LOW_HALF
    ensures OnNudge(EncodeTerminate(exitCode).value) == Success(ToInt32(exitCode as bv32))
  {
  }

  /** Conversely, every argument the receiver accepts is the packing of
      exactly the exit code in its upper half. */
  lemma AcceptedNudgeIsEncoded(arg: bv64)
    requires OnNudge(arg).Success?
    ensures EncodeTerminate(arg >> 32) == Success(arg)
  {
  }
}

=== FILE: options.dfy ===
/** The collector's option parsing: a scan over the option tokens that sets
    flags, reads the arguments of the options that take one, and stops with a
    usage error on anything it does not accept; then the dump format is
    normalised so that exactly one of text and binary is chosen. */
module Options {
  import opened Base

  /** The build configuration the option set depends on: Windows adds the
      nudge options, the conditional-branch coverage build adds the check
      options. */
  datatype Build = Build(windows: bool, cbrCoverage: bool)

  /** The option values, together with the verbosity level and the pending
      native-execution flag that the same parse sets. */
  datatype Config = Config(dumpText: bool, dumpBinary: bool, nudgeKills: bool, logdir: string,
                           nativeUntilThread: int, verbose: nat, check: bool, summary: bool,
                           goNative: bool)

  /** Why the collector refuses its options. */
  datatype UsageError =
    | MissingArgument(option: string)
    | InvalidNumber(option: string)
    | CheckCbrNotSet
    | Unrecognized(token: string)

  /** Parsing a token as a signed decimal (`%d`) or an unsigned one (`%u`):
      `None` when the token does not parse. */
  type IntParser = string -> Option<int>
  type UintParser = string -> Option<nat>

  /** The values before any token is read: everything off or empty, except
      that Windows builds terminate other processes by nudge by default. */
  function Initial(build: Build): Config
  {
    Config(false, false, build.windows, "", 0, 0, false, false, false)
  }

  /** The option names the build accepts. */
  predicate Known(build: Build, t: string)
  {
    || t in {"-dump_text", "-dump_binary", "-logdir", "-native_until_thread", "-verbose"}
    || (build.windows && t in {"-no_nudge_kills", "-nudge_kills"})
    || (build.cbrCoverage && t in {"-check_cbr", "-summary_only"})
  }

  /** How many argument tokens follow an option name. */
  function Arity(t: string): nat
  {
    if t in {"-logdir", "-native_until_thread", "-verbose"} then 1 else 0
  }

  /** One option as the token list gives it: its name and, for an option
      that takes an argument, the token after it if there is one. */
  datatype OptionUse = OptionUse(name: string, arg: Option<string>)

  /** The token list read as options: each token that is not the argument of
      the option before it names an option. */
  function Uses(tokens: seq<string>): seq<OptionUse>
  {
    if |tokens| == 0 then []
    else if Arity(tokens[0]) == 1 then
      if |tokens| == 1 then [OptionUse(tokens[0], None)]
      else [OptionUse(tokens[0], Some(tokens[1]))] + Uses(tokens[2..])
    else [OptionUse(tokens[0], None)] + Uses(tokens[1..])
  }

  function NamesOf(uses: seq<OptionUse>): seq<string>
  {
    if |uses| == 0 then [] else [uses[0].name] + NamesOf(uses[1..])
  }

  /** The option names of a token list. */
  function OptionNames(tokens: seq<string>): seq<string>
  {
    NamesOf(Uses(tokens))
  }

  /** The nudge setting named by the last of `-no_nudge_kills` and
      `-nudge_kills` among the names, if either occurs. */
  function LastNudge(names: seq<string>): Option<bool>
  {
    if |names| == 0 then None
    else
      var rest := LastNudge(names[1..]);
      if rest.Some? then rest
      else if names[0] == "-nudge_kills" then Some(true)
      else if names[0] == "-no_nudge_kills" then Some(false)
      else None
  }

  /** Whether the collector accepts the option `t` with the argument `arg`
      (the token after it, if any), the check being on or off: the build knows
      the name, an option that takes an argument has one, a thread threshold
      is a positive number, a verbosity is a number, and a summary is only
      asked for with the check on. */
  predicate Accepts(build: Build, t: string, arg: Option<string>, checkOn: bool,
                    parseInt: IntParser, parseUint: UintParser)
  {
    && Known(build, t)
    && (Arity(t) == 1 ==> arg.Some?)
    && (t == "-native_until_thread" && arg.Some? ==> parseInt(arg.value).Some? && parseInt(arg.value).value > 0)
    && (t == "-verbose" && arg.Some? ==> parseUint(arg.value).Some?)
    && (t == "-summary_only" ==> checkOn)
  }

  /** Some option before position `k` turns the check on. */
  predicate CheckedBefore(uses: seq<OptionUse>, k: nat)
  {
    exists j :: 0 <= j < k && j < |uses| && uses[j].name == "-check_cbr"
  }

  /** Every option of the list is accepted where it stands. */
  predicate AllAccepted(build: Build, uses: seq<OptionUse>, checkOn: bool,
                        parseInt: IntParser, parseUint: UintParser)
  {
    forall k :: 0 <= k < |uses| ==>
      Accepts(build, uses[k].name, uses[k].arg, checkOn || CheckedBefore(uses, k), parseInt, parseUint)
  }

  /** The argument of the last use of option `t`, if any. */
  function LastArg(uses: seq<OptionUse>, t: string): Option<string>
  {
    if |uses| == 0 then None
    else
      var rest := LastArg(uses[1..], t);
      if rest.Some? then rest
      else if uses[0].name == t then uses[0].arg
      else None
  }

  /** What the scan keeps true: a summary is only ever requested with the
      check on, and the native handoff is pending exactly when a positive
      thread threshold was given. */
  predicate Consistent(o: Config)
  {
    && (o.summary ==> o.check)
    && (o.goNative <==> o.nativeUntilThread > 0)
  }

  /** The outcome of reading one option: the new values and how many tokens
      it took, or a usage error. */
  datatype Step = Next(o: Config, consumed: nat) | Stop(error: UsageError)

  /** The options the comparison chain tells apart. */
  datatype OptionKind =
    | DumpText | DumpBinary | NoNudgeKills | NudgeKills | LogDir | NativeUntilThread | Verbose
    | CheckCbr | SummaryOnly | Unrecognised

  /** The option a token names in the build: the comparisons in the order the
      collector makes them, the nudge options only on Windows and the check
      options only with branch coverage. */
  function KindOf(build: Build, t: string): OptionKind
  {
    if t == "-dump_text" then DumpText
    else if t == "-dump_binary" then DumpBinary
    else if build.windows && t == "-no_nudge_kills" then NoNudgeKills
    else if build.windows && t == "-nudge_kills" then NudgeKills
    else if t == "-logdir" then LogDir
    else if t == "-native_until_thread" then NativeUntilThread
    else if t == "-verbose" then Verbose
    else if build.cbrCoverage && t == "-check_cbr" then CheckCbr
    else if build.cbrCoverage && t == "-summary_only" then SummaryOnly
    else Unrecognised
  }

  /** Each kind is named by exactly one token, and the known tokens are those
      of a kind. */
  lemma KindOfNames(build: Build, t: string)
    ensures KindOf(build, t) == DumpText <==> t == "-dump_text"
    ensures KindOf(build, t) == DumpBinary <==> t == "-dump_binary"
    ensures KindOf(build, t) == NoNudgeKills <==> build.windows && t == "-no_nudge_kills"
    ensures KindOf(build, t) == NudgeKills <==> build.windows && t == "-nudge_kills"
    ensures KindOf(build, t) == LogDir <==> t == "-logdir"
    ensures KindOf(build, t) == NativeUntilThread <==> t == "-native_until_thread"
    ensures KindOf(build, t) == Verbose <==> t == "-verbose"
    ensures KindOf(build, t) == CheckCbr <==> build.cbrCoverage && t == "-check_cbr"
    ensures KindOf(build, t) == SummaryOnly <==> build.cbrCoverage && t == "-summary_only"
    ensures KindOf(build, t) == Unrecognised <==> !Known(build, t)
    ensures Arity(t) == 1 <==> KindOf(build, t) in {LogDir, NativeUntilThread, Verbose}
  {
  }

  /** Reading an option of kind `kind`, named `t`, with `arg` the token after
      it if there is one. Only the nudge options touch the nudge setting and
      only the check options touch the check settings. */
  function Apply(kind: OptionKind, t: string, arg: Option<string>, o: Config,
                 parseInt: IntParser, parseUint: UintParser): (s: Step)
    requires Consistent(o)
    ensures s.Next? ==> Consistent(s.o)
    ensures s.Next? && kind != NoNudgeKills && kind != NudgeKills ==> s.o.nudgeKills == o.nudgeKills
    ensures s.Next? && kind != CheckCbr && kind != SummaryOnly ==> s.o.check == o.check && s.o.summary == o.summary
  {
    match kind
    case DumpText => Next(o.(dumpText := true), 1)
    case DumpBinary => Next(o.(dumpBinary := true), 1)
    case NoNudgeKills => Next(o.(nudgeKills := false), 1)
    case NudgeKills => Next(o.(nudgeKills := true), 1)
    case LogDir =>
      if arg.None? then Stop(MissingArgument(t)) else Next(o.(logdir := arg.value), 2)
    case NativeUntilThread =>
      if arg.None? then Stop(MissingArgument(t))
      else
        (match parseInt(arg.value)
         case Some(n) =>
           if n > 0 then Next(o.(nativeUntilThread := n, goNative := true), 2)
           else Stop(InvalidNumber(t))
         case None => Stop(InvalidNumber(t)))
    case Verbose =>
      if arg.None? then Stop(MissingArgument(t))
      else
        (match parseUint(arg.value)
         case Some(v) => Next(o.(verbose := v), 2)
         case None => Stop(InvalidNumber(t)))
    case CheckCbr => Next(o.(check := true), 1)
    case SummaryOnly =>
      if !o.check then Stop(CheckCbrNotSet) else Next(o.(summary := true), 1)
    case Unrecognised => Stop(Unrecognized(t))
  }

  /** Reading the option `t`, with `arg` the token after it if there is one. */
  function Interpret(build: Build, t: string, arg: Option<string>, o: Config,
                     parseInt: IntParser, parseUint: UintParser): (s: Step)
    requires Consistent(o)
    ensures s.Next? ==> Consistent(s.o)
    ensures s.Next? && !build.windows ==> s.o.nudgeKills == o.nudgeKills
    ensures s.Next? && !build.cbrCoverage ==> s.o.check == o.check && s.o.summary == o.summary
  {
    Apply(KindOf(build, t), t, arg, o, parseInt, parseUint)
  }

  /** An option is read exactly when it is accepted; otherwise the usage
      error names the first condition it breaks. A read option takes its
      argument token along. */
  lemma InterpretAccepts(build: Build, t: string, arg: Option<string>, o: Config,
                         parseInt: IntParser, parseUint: UintParser)
    requires Consistent(o)
    ensures var s := Interpret(build, t, arg, o, parseInt, parseUint);
      && (s.Next? <==> Accepts(build, t, arg, o.check, parseInt, parseUint))
      && (s.Next? ==> s.consumed == 1 + Arity(t))
      && (s.Stop? ==>
            s.error == (if !Known(build, t) then Unrecognized(t)
                        else if Arity(t) == 1 && arg.None? then MissingArgument(t)
                        else if t == "-summary_only" then CheckCbrNotSet
                        else InvalidNumber(t)))
  {
    KindOfNames(build, t);
  }

  /** What a read option stores: each flag is set by its own option only,
      `-logdir` stores its argument, `-verbose` and `-native_until_thread`
      their numbers; every other value stays. */
  lemma InterpretStores(build: Build, t: string, arg: Option<string>, o: Config,
                        parseInt: IntParser, parseUint: UintParser)
    requires Consistent(o)
    ensures var s := Interpret(build, t, arg, o, parseInt, parseUint);
      s.Next? ==>
        && (s.o.dumpText <==> o.dumpText || t == "-dump_text")
        && (s.o.dumpBinary <==> o.dumpBinary || t == "-dump_binary")
        && (s.o.check <==> o.check || t == "-check_cbr")
        && (s.o.summary <==> o.summary || t == "-summary_only")
        && (build.windows ==>
              s.o.nudgeKills == if t == "-no_nudge_kills" then false else if t == "-nudge_kills" then true else o.nudgeKills)
        && s.o.logdir == (if t == "-logdir" then arg.value else o.logdir)
        && (if t == "-verbose" then parseUint(arg.value) == Some(s.o.verbose) else s.o.verbose == o.verbose)
        && (if t == "-native_until_thread" then parseInt(arg.value) == Some(s.o.nativeUntilThread)
            else s.o.nativeUntilThread == o.nativeUntilThread)
  {
    KindOfNames(build, t);
  }

  /** The token loop, from the current values `o`. */
  function Scan(build: Build, tokens: seq<string>, o: Config, parseInt: IntParser, parseUint: UintParser)
    : (r: Result<Config, UsageError>)
    requires Consistent(o)
    ensures r.Success? ==> Consistent(r.value)
    ensures r.Success? && !build.windows ==> r.value.nudgeKills == o.nudgeKills
    ensures r.Success? && !build.cbrCoverage ==> r.value.check == o.check && r.value.summary == o.summary
    decreases |tokens|
  {
    if |tokens| == 0 then Success(o)
    else
      var arg := if |tokens| > 1 then Some(tokens[1]) else None;
      match Interpret(build, tokens[0], arg, o, parseInt, parseUint)
      case Stop(e) => Failure(e)
      case Next(o', consumed) => Scan(build, tokens[consumed..], o', parseInt, parseUint)
  }

  /** Exactly one dump format: binary whenever both or neither were asked for. */
  function Normalize(o: Config): (r: Config)
    ensures r.dumpText != r.dumpBinary
    ensures r.dumpText <==> o.dumpText && !o.dumpBinary
    ensures r.(dumpText := o.dumpText, dumpBinary := o.dumpBinary) == o
  {
    if o.dumpText == o.dumpBinary then o.(dumpText := false, dumpBinary := true) else o
  }

  /** The option parse as a whole. */
  function ParseOptions(build: Build, tokens: seq<string>, parseInt: IntParser, parseUint: UintParser)
    : (r: Result<Config, UsageError>)
    ensures r.Success? ==> r.value.dumpText != r.value.dumpBinary && Consistent(r.value)
  {
    var o :- Scan(build, tokens, Initial(build), parseInt, parseUint);
    Success(Normalize(o))
  }

  lemma NamesOfCons(u: OptionUse, uses: seq<OptionUse>)
    ensures NamesOf([u] + uses) == [u.name] + NamesOf(uses)
  {
    assert ([u] + uses)[1..] == uses;
  }

  lemma LastArgCons(u: OptionUse, uses: seq<OptionUse>, t: string)
    ensures LastArg([u] + uses, t)
         == if LastArg(uses, t).Some? then LastArg(uses, t) else if u.name == t then u.arg else None
  {
    assert ([u] + uses)[1..] == uses;
  }

  /** A `-check_cbr` comes before position `k + 1` of `[u] + uses` exactly
      when `u` is one or one comes before position `k` of `uses`. */
  lemma CheckedBeforeCons(u: OptionUse, uses: seq<OptionUse>, k: int)
    requires 0 <= k < |uses|
    ensures ([u] + uses)[k + 1] == uses[k]
    ensures CheckedBefore([u] + uses, k + 1) <==> u.name == "-check_cbr" || CheckedBefore(uses, k)
  {
    var all := [u] + uses;
    if u.name == "-check_cbr" {
      assert all[0].name == "-check_cbr";
    }
    if CheckedBefore(uses, k) {
      var j :| 0 <= j < k && j < |uses| && uses[j].name == "-check_cbr";
      assert all[j + 1] == uses[j];
    }
    if CheckedBefore(all, k + 1) {
      var j :| 0 <= j < k + 1 && j < |all| && all[j].name == "-check_cbr";
      if j > 0 {
        assert all[j] == uses[j - 1];
      }
    }
  }

  /** Accepting a list is accepting its first option and then the rest, with
      the check on once a `-check_cbr` has been read. */
  lemma AllAcceptedCons(build: Build, u: OptionUse, uses: seq<OptionUse>, checkOn: bool,
                        parseInt: IntParser, parseUint: UintParser)
    ensures AllAccepted(build, [u] + uses, checkOn, parseInt, parseUint)
        <==> Accepts(build, u.name, u.arg, checkOn, parseInt, parseUint)
             && AllAccepted(build, uses, checkOn || u.name == "-check_cbr", parseInt, parseUint)
  {
    var all := [u] + uses;
    var checkOn' := checkOn || u.name == "-check_cbr";
    assert !CheckedBefore(all, 0);
    forall k | 0 <= k < |uses|
      ensures all[k + 1] == uses[k]
      ensures checkOn || CheckedBefore(all, k + 1) <==> checkOn' || CheckedBefore(uses, k)
    {
      CheckedBeforeCons(u, uses, k);
    }
    if AllAccepted(build, all, checkOn, parseInt, parseUint) {
      assert Accepts(build, all[0].name, all[0].arg, checkOn || CheckedBefore(all, 0), parseInt, parseUint);
      forall k | 0 <= k < |uses|
        ensures Accepts(build, uses[k].name, uses[k].arg, checkOn' || CheckedBefore(uses, k), parseInt, parseUint)
      {
        assert Accepts(build, all[k + 1].name, all[k + 1].arg, checkOn || CheckedBefore(all, k + 1), parseInt, parseUint);
      }
    }
    if Accepts(build, u.name, u.arg, checkOn, parseInt, parseUint)
       && AllAccepted(build, uses, checkOn', parseInt, parseUint) {
      forall k | 0 <= k < |all|
        ensures Accepts(build, all[k].name, all[k].arg, checkOn || CheckedBefore(all, k), parseInt, parseUint)
      {
        if k > 0 {
          assert Accepts(build, uses[k - 1].name, uses[k - 1].arg, checkOn' || CheckedBefore(uses, k - 1), parseInt, parseUint);
        }
      }
    }
  }

  /** The first option of a token list as the scan reads it, and the list of
      options after it. */
  lemma UsesStep(build: Build, tokens: seq<string>, o: Config, parseInt: IntParser, parseUint: UintParser)
    requires Consistent(o) && |tokens| > 0
    ensures var t := tokens[0];
      var arg := if |tokens| > 1 then Some(tokens[1]) else None;
      var s := Interpret(build, t, arg, o, parseInt, parseUint);
      && Uses(tokens)[0] == OptionUse(t, if Arity(t) == 1 then arg else None)
      && (Accepts(build, t, arg, o.check, parseInt, parseUint)
          <==> Accepts(build, t, Uses(tokens)[0].arg, o.check, parseInt, parseUint))
      && (s.Next? ==> s.consumed <= |tokens| && Uses(tokens) == [Uses(tokens)[0]] + Uses(tokens[s.consumed..]))
  {
    InterpretConsumes(build, tokens[0], if |tokens| > 1 then Some(tokens[1]) else None, o, parseInt, parseUint);
  }

  /** A read option takes one token, and its argument token with it when it
      has one. */
  lemma InterpretConsumes(build: Build, t: string, arg: Option<string>, o: Config,
                          parseInt: IntParser, parseUint: UintParser)
    requires Consistent(o)
    ensures var s := Interpret(build, t, arg, o, parseInt, parseUint);
      s.Next? ==> s.consumed == 1 + Arity(t) && (Arity(t) == 1 ==> arg.Some?)
  {
    KindOfNames(build, t);
  }

  /** The scan, stated over the options of the token list: it succeeds
      exactly when every option is accepted where it stands, and then the
      log directory, the verbosity and the thread threshold are those of the
      last option that sets them, or stay as they were. */
  lemma {:induction false} ScanAccepts(build: Build, tokens: seq<string>, o: Config,
                                       parseInt: IntParser, parseUint: UintParser)
    requires Consistent(o)
    ensures var r := Scan(build, tokens, o, parseInt, parseUint);
      var uses := Uses(tokens);
      && (r.Success? <==> AllAccepted(build, uses, o.check, parseInt, parseUint))
      && (r.Success? ==>
            && r.value.logdir == (match LastArg(uses, "-logdir") case Some(d) => d case None => o.logdir)
            && (match LastArg(uses, "-verbose")
                case Some(a) => parseUint(a) == Some(r.value.verbose)
                case None => r.value.verbose == o.verbose)
            && (match LastArg(uses, "-native_until_thread")
                case Some(a) => parseInt(a) == Some(r.value.nativeUntilThread)
                case None => r.value.nativeUntilThread == o.nativeUntilThread))
    decreases |tokens|
  {
    if |tokens| > 0 {
      var t := tokens[0];
      var arg := if |tokens| > 1 then Some(tokens[1]) else None;
      var s := Interpret(build, t, arg, o, parseInt, parseUint);
      var uses := Uses(tokens);
      InterpretAccepts(build, t, arg, o, parseInt, parseUint);
      UsesStep(build, tokens, o, parseInt, parseUint);
      if s.Stop? {
        assert !CheckedBefore(uses, 0);
        assert !Accepts(build, uses[0].name, uses[0].arg, o.check || CheckedBefore(uses, 0), parseInt, parseUint);
      } else {
        var rest := tokens[s.consumed..];
        InterpretStores(build, t, arg, o, parseInt, parseUint);
        ScanAccepts(build, rest, s.o, parseInt, parseUint);
        AllAcceptedCons(build, uses[0], Uses(rest), o.check, parseInt, parseUint);
        LastArgCons(uses[0], Uses(rest), "-logdir");
        LastArgCons(uses[0], Uses(rest), "-verbose");
        LastArgCons(uses[0], Uses(rest), "-native_until_thread");
        assert Scan(build, tokens, o, parseInt, parseUint) == Scan(build, rest, s.o, parseInt, parseUint);
      }
    }
  }

  /** The parse as a whole, stated over the options of the token list: it
      succeeds exactly when every option is accepted where it stands (the
      check starting off), and then the stored values are those of the last
      option that sets them, or the initial ones. */
  lemma ParseOptionsAccepts(build: Build, tokens: seq<string>, parseInt: IntParser, parseUint: UintParser)
    ensures var r := ParseOptions(build, tokens, parseInt, parseUint);
      var uses := Uses(tokens);
      && (r.Success? <==> AllAccepted(build, uses, false, parseInt, parseUint))
      && (r.Success? ==>
            && r.value.logdir == (match LastArg(uses, "-logdir") case Some(d) => d case None => "")
            && (match LastArg(uses, "-verbose")
                case Some(a) => parseUint(a) == Some(r.value.verbose)
                case None => r.value.verbose == 0)
            && (match LastArg(uses, "-native_until_thread")
                case Some(a) => parseInt(a) == Some(r.value.nativeUntilThread)
                case None => r.value.nativeUntilThread == 0 && !r.value.goNative))
  {
    var o := Initial(build);
    ScanAccepts(build, tokens, o, parseInt, parseUint);
    var scanned := Scan(build, tokens, o, parseInt, parseUint);
    if scanned.Success? {
      var n := Normalize(scanned.value);
      assert ParseOptions(build, tokens, parseInt, parseUint) == Success(n);
      assert n.logdir == scanned.value.logdir && n.verbose == scanned.value.verbose;
      assert n.nativeUntilThread == scanned.value.nativeUntilThread && n.goNative == scanned.value.goNative;
    }
  }

  /** What an accepted token list says, stated over the option names it
      contains (see `NamesSay`). */
  lemma {:induction false} ScanNames(build: Build, tokens: seq<string>, o: Config,
                                     parseInt: IntParser, parseUint: UintParser)
    requires Consistent(o)
    ensures var r := Scan(build, tokens, o, parseInt, parseUint);
      r.Success? ==> NamesSay(build, OptionNames(tokens), o, r.value)
    decreases |tokens|
  {
    var r := Scan(build, tokens, o, parseInt, parseUint);
    if |tokens| > 0 && r.Success? {
      var t := tokens[0];
      var names := OptionNames(tokens);
      var arg := if |tokens| > 1 then Some(tokens[1]) else None;
      var s := Interpret(build, t, arg, o, parseInt, parseUint);
      ScanNamesStep(build, tokens, o, parseInt, parseUint);
      var restNames := OptionNames(tokens[s.consumed..]);
      ScanNames(build, tokens[s.consumed..], s.o, parseInt, parseUint);
      NamesSayCons(build, t, restNames, o, s.o, r.value);
    }
  }

  /** What reading the option names `names` from `o` to `v` says: every
      name is one the build knows; a flag is on exactly when it was on
      before or its name occurs; on Windows the nudge setting is the one the
      last nudge name gives, else the earlier one; and every `-summary_only`
      comes after a `-check_cbr` unless the check was already on. */
  predicate NamesSay(build: Build, names: seq<string>, o: Config, v: Config)
  {
    && (forall k :: 0 <= k < |names| ==> Known(build, names[k]))
    && (v.dumpText <==> o.dumpText || "-dump_text" in names)
    && (v.dumpBinary <==> o.dumpBinary || "-dump_binary" in names)
    && (v.check <==> o.check || "-check_cbr" in names)
    && (v.summary <==> o.summary || "-summary_only" in names)
    && (build.windows ==> v.nudgeKills == (match LastNudge(names) case Some(on) => on case None => o.nudgeKills))
    && (forall k :: 0 <= k < |names| && names[k] == "-summary_only" ==> o.check || "-check_cbr" in names[..k])
  }

  /** The facts carry over to a known name put in front of the list that
      takes `o` to `mid` the way the option reader does. */
  lemma NamesSayCons(build: Build, t: string, rest: seq<string>, o: Config, mid: Config, v: Config)
    requires Known(build, t) && (t == "-summary_only" ==> o.check)
    requires mid.dumpText <==> o.dumpText || t == "-dump_text"
    requires mid.dumpBinary <==> o.dumpBinary || t == "-dump_binary"
    requires mid.check <==> o.check || t == "-check_cbr"
    requires mid.summary <==> o.summary || t == "-summary_only"
    requires build.windows ==>
      mid.nudgeKills == if t == "-no_nudge_kills" then false else if t == "-nudge_kills" then true else o.nudgeKills
    requires NamesSay(build, rest, mid, v)
    ensures NamesSay(build, [t] + rest, o, v)
  {
    var names := [t] + rest;
    assert names[1..] == rest;
    SummaryOrderCons(t, rest, o.check, mid.check);
    forall k | 0 <= k < |names|
      ensures Known(build, names[k])
    {
      if k > 0 {
        assert names[k] == rest[k - 1];
      }
    }
  }

  /** One step of `ScanNames`: the first token is a known name read as an
      option, the names are it followed by the rest, and the flags it sets. */
  lemma ScanNamesStep(build: Build, tokens: seq<string>, o: Config, parseInt: IntParser, parseUint: UintParser)
    requires Consistent(o) && |tokens| > 0 && Scan(build, tokens, o, parseInt, parseUint).Success?
    ensures var t := tokens[0];
      var arg := if |tokens| > 1 then Some(tokens[1]) else None;
      var s := Interpret(build, t, arg, o, parseInt, parseUint);
      && s.Next? && s.consumed <= |tokens|
      && Scan(build, tokens, o, parseInt, parseUint) == Scan(build, tokens[s.consumed..], s.o, parseInt, parseUint)
      && OptionNames(tokens) == [t] + OptionNames(tokens[s.consumed..])
      && Known(build, t)
      && (t == "-summary_only" ==> o.check)
      && (s.o.dumpText <==> o.dumpText || t == "-dump_text")
      && (s.o.dumpBinary <==> o.dumpBinary || t == "-dump_binary")
      && (s.o.check <==> o.check || t == "-check_cbr")
      && (s.o.summary <==> o.summary || t == "-summary_only")
      && (build.windows ==>
            s.o.nudgeKills == if t == "-no_nudge_kills" then false else if t == "-nudge_kills" then true else o.nudgeKills)
  {
    var t := tokens[0];
    var arg := if |tokens| > 1 then Some(tokens[1]) else None;
    var s := Interpret(build, t, arg, o, parseInt, parseUint);
    InterpretStores(build, t, arg, o, parseInt, parseUint);
    InterpretAccepts(build, t, arg, o, parseInt, parseUint);
    UsesStep(build, tokens, o, parseInt, parseUint);
    NamesOfCons(Uses(tokens)[0], Uses(tokens[s.consumed..]));
  }

  /** The summary-after-check order carries over to a name put in front,
      given that name is itself in order. */
  lemma SummaryOrderCons(t: string, rest: seq<string>, before: bool, after: bool)
    requires after <==> before || t == "-check_cbr"
    requires t == "-summary_only" ==> before
    requires forall k :: 0 <= k < |rest| && rest[k] == "-summary_only" ==> after || "-check_cbr" in rest[..k]
    ensures var names := [t] + rest;
      forall k :: 0 <= k < |names| && names[k] == "-summary_only" ==> before || "-check_cbr" in names[..k]
  {
    var names := [t] + rest;
    forall k | 0 <= k < |names| && names[k] == "-summary_only"
      ensures before || "-check_cbr" in names[..k]
    {
      if k > 0 {
        assert names[..k] == [t] + rest[..k - 1];
        assert names[k] == rest[k - 1];
        if "-check_cbr" in rest[..k - 1] {
          var i :| 0 <= i < k - 1 && rest[i] == "-check_cbr";
          assert names[i + 1] == "-check_cbr";
        }
        if t == "-check_cbr" {
          assert names[0] == "-check_cbr";
        }
      }
    }
  }

  /** The parse as a whole, stated over the option names: binary output unless
      `-dump_text` alone was given, and the summary-only mode only after the
      check was requested. Read contrapositively: an unknown name, or a
      `-summary_only` before any `-check_cbr`, is a usage error. */
  lemma ParseOptionsNames(build: Build, tokens: seq<string>, parseInt: IntParser, parseUint: UintParser)
    ensures var r := ParseOptions(build, tokens, parseInt, parseUint);
      var names := OptionNames(tokens);
      r.Success? ==>
        && (forall k :: 0 <= k < |names| ==> Known(build, names[k]))
        && (r.value.dumpText <==> "-dump_text" in names && "-dump_binary" !in names)
        && (r.value.dumpBinary <==> "-dump_text" !in names || "-dump_binary" in names)
        && (r.value.check <==> "-check_cbr" in names)
        && (r.value.summary <==> "-summary_only" in names)
        && (build.windows ==> r.value.nudgeKills == (match LastNudge(names) case Some(on) => on case None => true))
        && (forall k :: 0 <= k < |names| && names[k] == "-summary_only" ==> "-check_cbr" in names[..k])
  {
    ScanNames(build, tokens, Initial(build), parseInt, parseUint);
  }

  /** Concrete token lists: the dump format. */
  lemma DumpFormatExamples(parseInt: IntParser, parseUint: UintParser)
    ensures var b := Build(false, true);
      && ParseOptions(b, [], parseInt, parseUint) == Success(Config(false, true, false, "", 0, 0, false, false, false))
      && ParseOptions(b, ["-dump_text"], parseInt, parseUint) == Success(Config(true, false, false, "", 0, 0, false, false, false))
      && ParseOptions(b, ["-dump_text", "-dump_binary"], parseInt, parseUint) == Success(Config(false, true, false, "", 0, 0, false, false, false))
  {
    var b := Build(false, true);
    var o := Initial(b);
    assert Scan(b, ["-dump_text"], o, parseInt, parseUint) == Scan(b, [], o.(dumpText := true), parseInt, parseUint);
    assert ["-dump_text", "-dump_binary"][1..] == ["-dump_binary"];
    assert Scan(b, ["-dump_text", "-dump_binary"], o, parseInt, parseUint)
        == Scan(b, ["-dump_binary"], o.(dumpText := true), parseInt, parseUint);
    assert Scan(b, ["-dump_binary"], o.(dumpText := true), parseInt, parseUint)
        == Scan(b, [], o.(dumpText := true, dumpBinary := true), parseInt, parseUint);
  }

  /** Concrete token lists: the summary-only mode needs the check first. */
  lemma SummaryOrderExamples(parseInt: IntParser, parseUint: UintParser)
    ensures var b := Build(false, true);
      && ParseOptions(b, ["-summary_only", "-check_cbr"], parseInt, parseUint) == Failure(CheckCbrNotSet)
      && ParseOptions(b, ["-check_cbr", "-summary_only"], parseInt, parseUint)
         == Success(Config(false, true, false, "", 0, 0, true, true, false))
  {
    var b := Build(false, true);
    var o := Initial(b);
    assert Interpret(b, "-summary_only", Some("-check_cbr"), o, parseInt, parseUint) == Stop(CheckCbrNotSet);
    assert ["-check_cbr", "-summary_only"][1..] == ["-summary_only"];
    assert Interpret(b, "-check_cbr", Some("-summary_only"), o, parseInt, parseUint) == Next(o.(check := true), 1);
    assert Interpret(b, "-summary_only", None, o.(check := true), parseInt, parseUint)
        == Next(o.(check := true, summary := true), 1);
    assert ["-summary_only"][1..] == [];
    assert Scan(b, ["-summary_only"], o.(check := true), parseInt, parseUint)
        == Scan(b, [], o.(check := true, summary := true), parseInt, parseUint);
    assert Scan(b, ["-check_cbr", "-summary_only"], o, parseInt, parseUint)
        == Scan(b, ["-summary_only"], o.(check := true), parseInt, parseUint);
  }

  /** Concrete token lists: a missing or non-positive thread threshold is a
      usage error, a positive one makes the handoff pending, and an option of
      another build is unrecognised. */
  lemma ThresholdExamples(parseInt: IntParser, parseUint: UintParser)
    requires parseInt("0") == Some(0) && parseInt("3") == Some(3)
    ensures var b := Build(false, true);
      && ParseOptions(b, ["-native_until_thread", "0"], parseInt, parseUint) == Failure(InvalidNumber("-native_until_thread"))
      && ParseOptions(b, ["-native_until_thread", "3"], parseInt, parseUint)
         == Success(Config(false, true, false, "", 3, 0, false, false, true))
      && ParseOptions(b, ["-native_until_thread"], parseInt, parseUint) == Failure(MissingArgument("-native_until_thread"))
      && ParseOptions(b, ["-nudge_kills"], parseInt, parseUint) == Failure(Unrecognized("-nudge_kills"))
  {
    var b := Build(false, true);
    var o := Initial(b);
    assert Interpret(b, "-native_until_thread", Some("0"), o, parseInt, parseUint) == Stop(InvalidNumber("-native_until_thread"));
    assert Interpret(b, "-native_until_thread", Some("3"), o, parseInt, parseUint)
        == Next(o.(nativeUntilThread := 3, goNative := true), 2);
    assert ["-native_until_thread", "3"][2..] == [];
    assert Interpret(b, "-native_until_thread", None, o, parseInt, parseUint) == Stop(MissingArgument("-native_until_thread"));
    assert Interpret(b, "-nudge_kills", None, o, parseInt, parseUint) == Stop(Unrecognized("-nudge_kills"));
  }
}
